=== FILE: README.md ===
# Itinerary builder: a Dafny model

This project models the itinerary builder of a travel-agency web app and
proves properties of the model. The builder is a three-step form. The user
enters customer and trip details and picks a start and an end date. The form
then generates one day per calendar date. The user plans activities and
transfers on each day and adds flights, and the builder computes the trip
total. The preview page shows the itinerary as a printable document.

The model is functional. An itinerary is an immutable value (`Itineraries`)
made of days, activities, transfers and flights. Each handler of the builder
is a pure function from the current itinerary to the next one:

- `Builder`: add, update and remove items by day position and id.
- `Dates`: the date inputs and day generation.
- `Pricing`: the total price.
- `Navigation`: the step buttons.
- `NumericInput`: coercion of the price and capacity inputs.
- `Preview`: what the preview page derives and shows.
- `Handoff`: the click on "Preview Itinerary".

`Controller` gathers every form event into one type and proves the invariant
that the events keep. `Walkthrough` replays a short session and proves where
it ends up. `Sequences` holds the generic list operations the handlers are
built from: map-at-index, update-by-id, filter-by-id and sum.

Representation choices:
- Prices are `real`. No IEEE rounding is modelled.
- Calendar dates are integer day ordinals.
- Empty date inputs and JavaScript's NaN are `None`.
- Ids are parameters and are never assumed to be unique.
- A field update `{ ...item, [field]: value }` is an `Edit` value, which pairs a field with a value of that field's type.

Where the code departs from what the form appears to intend, the model follows
the code:
- The initial state claims one day but holds none (`Itineraries.InitialNotConsistent`).
- The day dates can go stale when the start date changes while the end date is empty (`Dates.DatesCanGoStale`).
- An end date before the start date is accepted, and the days then run forward from the start (`Dates.SwappedRangeRunsForward`).
- Negative prices and capacities are kept.
- The night count is not clamped.
- The total handed to the preview is the one computed at the previous click (see Findings).
- The preview percent-decodes a parameter that the query-string parser has already decoded (see Findings).

## Model

| member | source | states |
|---|---|---|
| Activities.New | app/create/page.tsx:127-135 | A new activity carries the given id and price 0, and every text field is empty. |
| Activities.Apply | app/create/page.tsx:153 | Spreading an activity with one field replaced changes exactly that field to the given value and leaves every other field as it was. |
| Activities.Extensional | app/create/page.tsx:13-21 | The seven declared fields make up the whole activity, so agreeing on all of them means equal. |
| Transfers.New | app/create/page.tsx:173-182 | A new transfer carries the given id, price 0 and capacity 1, and every text field is empty. |
| Transfers.Apply | app/create/page.tsx:200 | Spreading a transfer with one field replaced changes exactly that field. |
| Transfers.Extensional | app/create/page.tsx:23-32 | The eight declared fields make up the whole transfer. |
| Flights.New | app/create/page.tsx:220-230 | A new flight carries the given id and price 0, is a departure flight, and every other field is empty. |
| Flights.Apply | app/create/page.tsx:241 | Spreading a flight with one field replaced changes exactly that field. |
| Flights.Extensional | app/create/page.tsx:34-44 | The nine declared fields make up the whole flight. |
| Itineraries.Initial | app/create/page.tsx:68-80 | The builder starts with empty customer name, email, phone, destination and duration, no dates, no days, no flights, a day count of 1 and a total of 0. |
| Itineraries.InitialNotConsistent | app/create/page.tsx:73-78 | In the starting state the day list does not match the day count. |
| Dates.CeilDays | app/create/page.tsx:337 | The rounded-up day count is the least whole number of days that covers the span. |
| Dates.DiffDays | app/create/page.tsx:336-337 | The derived count is at least 1, covers the absolute span with one day to spare, and is the least count that does. |
| Dates.DayCountIsSpan | app/create/page.tsx:333-343 | On whole dates the derived count is the inclusive span, so the `diffDays > 0` guard always passes. |
| Dates.DayCountSymmetric | app/create/page.tsx:358-362 | Swapping start and end gives the same day count. |
| Dates.GenerateDays | app/create/page.tsx:111-121 | A count n yields n days (none for n of 0 or less), numbered 1 to n, dated start, start+1, and so on, each with no activities or transfers. |
| Dates.InitializeDays | app/create/page.tsx:107-124 | The day list is replaced by the generated days and the day count set to n, so the two agree; no other field changes. |
| Dates.SetStartDate | app/create/page.tsx:328-344 | The new start date is stored. If the end date is also set, the days are regenerated from the new start and match the inclusive span; otherwise nothing else changes. |
| Dates.SetEndDate | app/create/page.tsx:353-369 | The new end date is stored. If the start date is also set, the days are regenerated from the stored start; otherwise nothing else changes. |
| Dates.SwappedRangeRunsForward | app/create/page.tsx:358-366 | Choosing start day 10 and then end day 7 gives four days dated 10 to 13. |
| Dates.DatesCanGoStale | app/create/page.tsx:328-344 | After clearing the end date, a new start date leaves the days dated from the old start. |
| Sequences.UpdateById | app/create/page.tsx:152-154 | Mapping by id rewrites exactly the elements carrying the id, in place, keeps the length, and changes nothing when no element carries it. |
| Sequences.WithoutIdAppend | app/create/page.tsx:166 | Filtering out an id distributes over concatenation and drops a single element exactly when it carries the id, so the survivors keep their original order and repetitions. |
| Sequences.WithoutIdMembers | app/create/page.tsx:248 | Filtering out an id keeps exactly the elements whose id differs. |
| Builder.EditDay | app/create/page.tsx:139-141 | Mapping over the days changes only the day at the given position, and nothing at all for a position outside the list. |
| Builder.AddActivity | app/create/page.tsx:126-143 | The addressed day gains one new activity at the end, keeping its earlier activities in order and its transfers. The other days and the flights are untouched, and an out-of-range position changes nothing. |
| Builder.UpdateActivity | app/create/page.tsx:145-159 | On the addressed day only the named field of activities with the id changes. Length, order, the other fields and all other days are kept. |
| Builder.RemoveActivity | app/create/page.tsx:161-170 | The addressed day's activities become exactly the order-keeping filter of its old list by the id. The list shrinks by the number of matches, and the other days are untouched. |
| Builder.AddTransfer | app/create/page.tsx:172-190 | The addressed day gains one new transfer at the end, keeping its earlier transfers and its activities; nothing else changes. |
| Builder.UpdateTransfer | app/create/page.tsx:192-206 | On the addressed day only the named field of transfers with the id changes; length, order and every other field are kept. |
| Builder.RemoveTransfer | app/create/page.tsx:208-217 | The addressed day's transfers become exactly the order-keeping filter of its old list by the id; the list shrinks by the number of matches. |
| Builder.AddFlight | app/create/page.tsx:219-236 | The flight list gains exactly the new departure flight with the given id, empty fields and price 0, at the end, keeping earlier flights in order; nothing else changes. |
| Builder.UpdateFlight | app/create/page.tsx:238-243 | Only the named field of flights with the id changes; length, order and every other field are kept. |
| Builder.RemoveFlight | app/create/page.tsx:245-250 | The flight list becomes exactly the order-keeping filter of the old list by the id, and it shrinks by the number of matches. |
| Builder.AddThenRemoveActivity | app/create/page.tsx:126-170 | Removing a just-added activity by an id no other activity of that day carries restores the itinerary. |
| Builder.AddThenRemoveTransfer | app/create/page.tsx:172-217 | Removing a just-added transfer by a fresh id restores the itinerary. |
| Builder.AddThenRemoveFlight | app/create/page.tsx:219-250 | Removing a just-added flight by a fresh id restores the itinerary. |
| Builder.MissingActivityIdIsNoOp | app/create/page.tsx:145-170 | Updating or removing an activity id that the day does not hold leaves the itinerary unchanged. |
| Builder.MissingTransferIdIsNoOp | app/create/page.tsx:192-217 | Updating or removing a transfer id that the day does not hold leaves the itinerary unchanged. |
| Builder.MissingFlightIdIsNoOp | app/create/page.tsx:238-250 | Updating or removing a flight id that no flight holds leaves the itinerary unchanged. |
| Builder.RemoveDeletesEveryCopy | app/create/page.tsx:245-250 | Two flights sharing a clock-based id are both deleted by one removal. |
| Pricing.CalculateTotalPrice | app/create/page.tsx:252-269 | The day-by-day accumulation stores the sum of every activity and transfer price over all days plus every flight price, and changes nothing else. |
| Pricing.TotalAfterDayChange | app/create/page.tsx:255-262 | Replacing one day changes the total by exactly the difference of that day's prices. |
| Pricing.EmptyDaysCostNothing | app/create/page.tsx:255-262 | Days with no items add nothing to the total. |
| Pricing.AddingBlankActivityKeepsTotal | app/create/page.tsx:126-143 | Adding a new activity (price 0) leaves the total unchanged. |
| Pricing.AddingBlankTransferKeepsTotal | app/create/page.tsx:172-190 | Adding a new transfer (price 0) leaves the total unchanged. |
| Pricing.AddingBlankFlightKeepsTotal | app/create/page.tsx:219-236 | Adding a new flight (price 0) leaves the total unchanged. |
| Pricing.AddingBlankItemKeepsTotal | app/create/page.tsx:126-236 | Adding a new item of any kind leaves the total unchanged. |
| Pricing.RemovingLowersTotal | app/create/page.tsx:161-250 | A removal lowers the total by exactly the prices of the items it deletes. |
| Pricing.NonPriceActivityEditKeepsTotal | app/create/page.tsx:145-159 | Editing an activity field other than the price leaves the total unchanged. |
| Pricing.NonPriceTransferEditKeepsTotal | app/create/page.tsx:192-206 | Editing a transfer field other than the price leaves the total unchanged. |
| Pricing.NonPriceFlightEditKeepsTotal | app/create/page.tsx:238-243 | Editing a flight field other than the price leaves the total unchanged. |
| Pricing.NonPriceEditKeepsTotal | app/create/page.tsx:145-243 | No edit of a field other than the price changes the total. |
| Pricing.ActivityPriceEditShiftsTotal | app/create/page.tsx:145-159 | If one activity of the day carries the id, setting its price moves the total by the new price minus the old one. |
| Pricing.TransferPriceEditShiftsTotal | app/create/page.tsx:192-206 | If one transfer of the day carries the id, setting its price moves the total by the difference. |
| Pricing.FlightPriceEditShiftsTotal | app/create/page.tsx:238-243 | If one flight carries the id, setting its price moves the total by the difference. |
| Controller.Apply | app/create/page.tsx:286-320 | Each of the four text inputs (customer name, email, phone, destination) stores its value in its own field and changes nothing else; no other event touches those fields, only date events touch the dates and day count, and no event changes the stored total or the duration. |
| Controller.ApplyKeepsConsistent | app/create/page.tsx:123-250 | No form event breaks the agreement of the day list with the day count, or the numbering 1, 2, 3, ... |
| Controller.DatesChosenMakeConsistent | app/create/page.tsx:328-369 | A date event after which both dates are set leaves the day list in agreement with the day count, whatever came before. |
| Controller.RunKeepsConsistent | app/create/page.tsx:123-369 | Once the day list and count agree, they agree after any sequence of form events. |
| Navigation.Navigate | app/create/page.tsx:697-762 | Next works exactly below step 3 when it is enabled and leads to the following step; Previous works exactly above step 1 and leads to the step before; a numbered button works exactly for 1 to 3 and leads to that step. From a valid step every click leads to a valid step. |
| Navigation.NextFromBasics | app/create/page.tsx:756-757 | From step 1, Next works exactly when destination, start date and customer name are all filled in, and it leads to step 2. |
| Navigation.NextFromDays | app/create/page.tsx:752-758 | From step 2, Next works exactly when every day has at least one activity, and it leads to step 3. |
| Navigation.EndpointsOfTheWizard | app/create/page.tsx:733-770 | Step 3 offers no Next, and Previous works exactly above step 1 and leads to the step before. |
| Navigation.JumpBypassesGuard | app/create/page.tsx:697-700 | From the start, step 3 is one numbered click away although Next is disabled. |
| Navigation.StepStaysInRange | app/create/page.tsx:697-762 | No sequence of clicks and form changes takes the step out of 1, 2, 3. |
| NumericInput.TrimStart | app/create/page.tsx:554 | Only leading white space is dropped, and what remains does not start with white space. |
| NumericInput.DigitPrefix | app/create/page.tsx:554 | The longest leading run of digits in the radix is what `parseInt` reads. |
| NumericInput.Digits | app/create/page.tsx:552 | The decimal text of a number consists of digits, has no leading zero unless the number is 0, and reads back as that number. |
| NumericInput.ParseIntToString | app/create/page.tsx:554 | Parsing the decimal text of any integer, negative ones included, yields that integer. |
| NumericInput.ParseInt | app/create/page.tsx:554 | Blank text parses to nothing; a negative result needs a leading minus after the white space, and a positive one needs its absence. |
| NumericInput.ParseNegation | app/create/page.tsx:554 | A minus sign before text that starts with a digit negates what the text parses as. |
| NumericInput.CoerceCapacity | app/create/page.tsx:554 | Capacity is never 0. Unparseable text and 0 become 1, and every other parsed integer, negatives included, is kept. |
| NumericInput.CapacityOfTypedNumber | app/create/page.tsx:554 | A capacity typed in decimal is stored as typed, except 0, which is stored as 1. |
| NumericInput.EmptyCapacityIsOne | app/create/page.tsx:554 | A cleared capacity input stores 1. |
| NumericInput.CapacityIgnoresTrailingText | app/create/page.tsx:554 | Text after the leading digits is ignored: "1e3" stores 1. |
| NumericInput.CoercePrice | app/create/page.tsx:449 | A NaN price becomes 0 and every parsed number, negatives included, is kept. |
| Preview.NightsNegativeOnlyWithoutDays | app/preview/page.tsx:117 | The night count is one less than the day count and is negative exactly when the day count is below 1. |
| Preview.ZeroDaysShowMinusOneNights | app/preview/page.tsx:131 | A zero-day itinerary is announced as "0 Days -1 Nights". |
| Preview.TimeLabel | app/preview/page.tsx:169 | The time cell shows the time when one is set and "TBD" otherwise. |
| Preview.ReplaceFirst | app/preview/page.tsx:215 | Only the first occurrence of the character is replaced. |
| Preview.ToUpper | app/preview/page.tsx:215 | Upper-casing maps each character on its own and keeps the length. |
| Preview.TransferLabel | app/preview/page.tsx:215 | The first hyphen becomes a space, later hyphens stay, and letters are upper-cased. A type without a hyphen is only upper-cased. |
| Preview.PrivateCarLabel | app/preview/page.tsx:215 | The type "private-car" is headed "PRIVATE CAR". |
| Preview.TaxiLabel | app/preview/page.tsx:215 | The type "taxi" is headed "TAXI". |
| Preview.FlightHeading | app/preview/page.tsx:246 | The heading is "Departure Flight" exactly for the type "departure" and "Return Flight" otherwise. |
| Preview.ActivityCards | app/preview/page.tsx:164-198 | One card per activity, in order, each captioned with the activity's time or "TBD" when the time is empty. |
| Preview.TransferCards | app/preview/page.tsx:201-230 | One card per transfer, in order, each captioned with the transfer type with its first hyphen turned into a space and upper-cased. |
| Preview.FlightCards | app/preview/page.tsx:241-275 | One card per flight, in order, each titled "Departure Flight" for a departure and "Return Flight" otherwise. |
| Preview.RenderDay | app/preview/page.tsx:147-231 | A day's section is its heading, then its activity cards in order, then its transfer cards in order, each card at its item's position, so each activity shows its time or "TBD" and each transfer its type label. |
| Preview.RenderFlights | app/preview/page.tsx:235-277 | The flight section is empty exactly when there are no flights. |
| Preview.RenderDays | app/preview/page.tsx:147-232 | The day sections hold only day headings, activity cards and transfer cards. |
| Preview.ActivityCardsShow | app/preview/page.tsx:164-198 | The activity cards show the day's activities in list order, and their prices add up to the activities' prices. |
| Preview.TransferCardsShow | app/preview/page.tsx:201-230 | The transfer cards show the day's transfers in list order, and their prices add up to the transfers' prices. |
| Preview.FlightCardsShow | app/preview/page.tsx:241-275 | The flight cards show the flights in list order, and their prices add up to the flights' prices. |
| Preview.DayShows | app/preview/page.tsx:147-231 | A day's section shows its number, its activities and its transfers in list order, and the prices on it add up to the day's price. |
| Preview.DaysShow | app/preview/page.tsx:147-232 | The day sections show the days in list order, with every activity and transfer, and the prices on them add up to the days' prices. |
| Preview.FlightsShow | app/preview/page.tsx:235-277 | The flight section shows exactly the flights, in list order. |
| Preview.RenderShowsFlightHeading | app/preview/page.tsx:235 | The flight heading appears exactly when there are flights. |
| Preview.RenderShowsPrice | app/preview/page.tsx:147-277 | The prices printed on the cards add up to the trip total. |
| Preview.RenderShows | app/preview/page.tsx:147-277 | The document shows the days in order, each day's activities then transfers in order, and then the flights in order. The flight heading appears exactly when there are flights, and the card prices add up to the total. |
| Preview.PercentDecode | app/preview/page.tsx:69 | Text without '%' is returned unchanged, and decoding never lengthens the text. |
| Preview.StrayPercent | app/preview/page.tsx:69 | A '%' that is not followed by a hexadecimal digit makes decoding fail, whatever follows. |
| Preview.ReadDataAsWritten | app/preview/page.tsx:65-75 | As written, the page holds an itinerary exactly when the parameter is present, non-empty, percent-decodes and the decoded text parses, and then it is what that text parses to. |
| Preview.AsWrittenAgreesWithoutPercent | app/preview/page.tsx:65-75 | As written, text without '%' is read just as the corrected reading reads it. |
| Preview.StrayPercentStaysLoading | app/preview/page.tsx:65-90 | As written, serialised text containing "50% off" leaves the page on "Loading Preview...". |
| Preview.EscapeDecodedTwice | app/preview/page.tsx:66-69 | As written, the text "%41" reaches the JSON parser as "A". |
| Preview.ReadData | app/preview/page.tsx:65-75 | With the parameter parsed as received, the page holds an itinerary only when the parameter is present and non-empty, and then it is exactly what the text parses to. |
| Preview.LoadingUnlessDecoded | app/preview/page.tsx:81-90 | The page shows "Loading Preview..." exactly when the parameter is missing, empty or fails to parse; otherwise it shows the parsed itinerary. |
| Handoff.HandlePreviewAsWritten | app/create/page.tsx:271-276 | The itinerary handed to the preview is the current one unchanged, total stored before the click included, while the next state is that itinerary with the recomputed total. |
| Handoff.HandlePreview | app/create/page.tsx:271-276 | The handed-off itinerary is the current one with its total recomputed from its own items, and it is also the next state. |
| Handoff.StaleTotalHandedOff | app/create/page.tsx:271-276 | As written, one flight priced 100 previews with a total of 0 while its card shows 100. |
| Handoff.SecondClickIsCurrent | app/create/page.tsx:271-276 | As written, a second click with no edit in between hands off the right total. |
| Handoff.TotalShownMatchesCards | app/preview/page.tsx:298-303 | With the corrected handoff, the total shown equals the sum of the prices on the cards. |
| Handoff.HandoffRoundTrip | app/preview/page.tsx:65-75 | Given a serialisation that parsing inverts and that is never empty, the preview, reading the parameter as received, holds exactly the itinerary handed off. |
| Walkthrough.RangeChosen | app/create/page.tsx:328-369 | Choosing a three-day range yields three empty days dated from the start, in agreement with the day count, and a total of 0. |
| Walkthrough.ThreeDayTrip | app/create/page.tsx:126-269 | Adding an activity priced 50 on day 2 and a flight priced 300 leaves three consistent days with that layout and a total of 350. |

## Left out

- Auto-saving to local storage and reloading on mount (app/create/page.tsx:85-105) are browser storage and timers and are not modelled.
- Handoff.HandoffRoundTrip: JSON serialisation and parsing are foreign library calls and appear only as `stringify`/`parse` parameters with an assumed round trip. The browser's query-string parser is taken to return exactly the text `encodeURIComponent` encoded (text with lone surrogates, on which `encodeURIComponent` throws, is not modelled), and the new window is not modelled.
- Preview.PercentDecode: decodes only ASCII escapes (%00 to %7F). An escape that starts a multi-byte UTF-8 sequence is treated as a failure, whereas `decodeURIComponent` decodes valid ones.
- Preview.ReadData: `parse` yields an itinerary or nothing, so JSON that parses to some other value is not modelled. `{}` makes rendering throw at app/preview/page.tsx:147, and `null` or `0` leave the page loading.
- The preview header and trip overview (app/preview/page.tsx:104-144) show the customer, destination, day count and travel dates; of these only the night count (`Preview.NightCount`) is modelled, and of the total block (app/preview/page.tsx:298-303) only the total.
- Ids come from `Date.now()`. They are parameters and may repeat.
- JavaScript `Date` behaviour is not modelled: timezones, `setDate` against `toISOString`, ISO and locale formatting of dates and times. Dates are day ordinals.
- Floating point is not modelled. Prices are exact reals, and the total's `toFixed(2)` formatting is not modelled.
- NumericInput.CoercePrice: takes `parseFloat`'s result as a parameter (None for NaN), because the decimal and exponent grammar of `parseFloat` is not modelled.
- NumericInput.ParseInt: reads into an unbounded integer, so the loss of precision of very long inputs in a double is not modelled.
- Preview.ToUpper: upper-cases only the letters a to z. The JavaScript `toUpperCase` also maps other Unicode letters.
- Dates.SetStartDate: assumes each change handler sees the state left by the previous event. React's batching of several events before a re-render is not modelled.
- Dates.SetEndDate: makes the same assumption. The handler calls `initializeDays` with the render's start date (app/create/page.tsx:358, 366), which is the stored one only when no other event is pending.
- Pricing.CalculateTotalPrice: makes the same assumption. It sums the render's `itinerary.days` and `itinerary.flights` (app/create/page.tsx:255, 264), which are the stored ones only when no other event is pending.
- Which inputs each step shows, styling, icons, image placeholders, the print button and `window.print` are layout and are not modelled.
- The static landing page and the app layout hold no logic and are not part of this model.
- Walkthrough.ThreeDayTrip: the session is stated as nested builder calls, not as a list of form events run through `Controller.Run`. The two agree because `Controller.Apply` maps each event to the same builder call.

## Findings

| source | as written | input that shows it | evidently intended | confidence | as-written member | corrected member |
|---|---|---|---|---|---|---|
| app/preview/page.tsx:66-69 | `decodeURIComponent` is applied to the text that `searchParams.get` has already decoded, so the serialised itinerary is percent-decoded twice. | An activity described as "50% off": the second decoding throws, the error is only logged, and the page stays on "Loading Preview...". A description "%41" reaches the parser as "A". | The parameter is parsed as received. | not executed | Preview.StrayPercentStaysLoading | Handoff.HandoffRoundTrip |
| app/create/page.tsx:271-276 | `calculateTotalPrice()` only queues the new total. The same call then serialises the render's `itinerary`, whose `totalPrice` is the value from the previous computation. | A fresh itinerary with one flight priced 100 (stored total 0): the preview shows a total of 0.00 while its one card shows 100. | The handed-off itinerary carries the total of its own items. | not executed | Handoff.StaleTotalHandedOff | Handoff.TotalShownMatchesCards |

=== FILE: activities.dfy ===
/** The Activity record of the itinerary builder and its field edits. */
module Activities {
  import opened Basics

  /** One activity planned on a day. `time` is "HH:MM" or empty for unscheduled. */
  datatype Activity = Activity(id: string, name: string, description: string, time: string,
                               duration: string, price: real, location: string)

  /** The keys of an Activity record. */
  datatype Field = Id | Name | Description | Time | Duration | Price | Location

  /** A field name together with a value of that field's type: the
      `(field, value)` pair the form passes to `updateActivity`. */
  datatype Edit =
    | SetId(id: string)
    | SetName(name: string)
    | SetDescription(description: string)
    | SetTime(time: string)
    | SetDuration(duration: string)
    | SetPrice(price: real)
    | SetLocation(location: string)

  function IdOf(a: Activity): string { a.id }

  function PriceOf(a: Activity): real { a.price }

  /** Reads one field. */
  function Get(a: Activity, f: Field): FieldValue
  {
    match f
    case Id => Text(a.id)
    case Name => Text(a.name)
    case Description => Text(a.description)
    case Time => Text(a.time)
    case Duration => Text(a.duration)
    case Price => Amount(a.price)
    case Location => Text(a.location)
  }

  function FieldOf(e: Edit): Field
  {
    match e
    case SetId(_) => Id
    case SetName(_) => Name
    case SetDescription(_) => Description
    case SetTime(_) => Time
    case SetDuration(_) => Duration
    case SetPrice(_) => Price
    case SetLocation(_) => Location
  }

  function ValueOf(e: Edit): FieldValue
  {
    match e
    case SetId(v) => Text(v)
    case SetName(v) => Text(v)
    case SetDescription(v) => Text(v)
    case SetTime(v) => Text(v)
    case SetDuration(v) => Text(v)
    case SetPrice(v) => Amount(v)
    case SetLocation(v) => Text(v)
  }

  /** The blank activity that "Add Activity" appends. */
  function New(id: string): (a: Activity)
    ensures Get(a, Id) == Text(id)
    ensures Get(a, Price) == Amount(0.0)
    ensures forall f :: f != Id && f != Price ==> Get(a, f) == Text("")
  {
    Activity(id, "", "", "", "", 0.0, "")
  }

  /** `{ ...activity, [field]: value }`: the edited field takes the new value
      and every other field keeps its old one. */
  function Apply(a: Activity, e: Edit): (r: Activity)
    ensures forall f :: Get(r, f) == if f == FieldOf(e) then ValueOf(e) else Get(a, f)
  {
    match e
    case SetId(v) => a.(id := v)
    case SetName(v) => a.(name := v)
    case SetDescription(v) => a.(description := v)
    case SetTime(v) => a.(time := v)
    case SetDuration(v) => a.(duration := v)
    case SetPrice(v) => a.(price := v)
    case SetLocation(v) => a.(location := v)
  }

  /** The rewrite an edit performs, as a function value for `map`. */
  function Editor(e: Edit): Activity -> Activity
  {
    a => Apply(a, e)
  }

  /** Two activities that agree on every field are equal, so the contract
      of `Apply` determines its result completely. */
  lemma Extensional(a: Activity, b: Activity)
    requires forall f :: Get(a, f) == Get(b, f)
    ensures a == b
  {
    assert Get(a, Id) == Get(b, Id) && Get(a, Name) == Get(b, Name);
    assert Get(a, Description) == Get(b, Description) && Get(a, Time) == Get(b, Time);
    assert Get(a, Duration) == Get(b, Duration) && Get(a, Price) == Get(b, Price);
    assert Get(a, Location) == Get(b, Location);
  }
}

=== FILE: basics.dfy ===
/** Small value types shared by the itinerary model. */
module Basics {

  /** An optional value. Empty form inputs (the source's "" dates) and
      JavaScript's NaN results are `None`. */
  datatype Option<T> = None | Some(value: T)

  /** A record field's value as seen through `keyof`: the source's
      `string | number`, with numbers split into prices and whole counts. */
  datatype FieldValue = Text(text: string) | Amount(amount: real) | Whole(whole: int)

  function Abs(x: int): (r: nat)
    ensures r == x || r == -x
  {
    if x < 0 then -x else x
  }
}

=== FILE: builder.dfy ===
/** The builder's update operations. Each returns a new itinerary in which
    exactly one collection differs: one day's activities, one day's
    transfers, or the flight list. Days are addressed by position, items by
    id; ids are taken as parameters and need not be unique. */
module Builder {
  import opened Basics
  import opened Sequences
  import opened Itineraries
  import Activities
  import Transfers
  import Flights

  /** Position `dayIndex` names a day of the list. */
  predicate InRange(it: Itinerary, dayIndex: int)
  {
    0 <= dayIndex < |it.days|
  }

  /** Only the day at `dayIndex` may differ, and the day count, numbering
      and dates of all days are as before. */
  predicate OnlyDayChanged(it: Itinerary, r: Itinerary, dayIndex: int)
  {
    && r == it.(days := r.days)
    && |r.days| == |it.days|
    && (forall i :: 0 <= i < |it.days| && i != dayIndex ==> r.days[i] == it.days[i])
    && (forall i :: 0 <= i < |it.days| ==> r.days[i].day == it.days[i].day && r.days[i].date == it.days[i].date)
  }

  /** `prev.days.map((day, index) => index === dayIndex ? f(day) : day)`. */
  function EditDay(it: Itinerary, dayIndex: int, f: Day -> Day): (r: Itinerary)
    ensures r == it.(days := r.days)
    ensures |r.days| == |it.days|
    ensures forall i :: 0 <= i < |it.days| && i != dayIndex ==> r.days[i] == it.days[i]
    ensures InRange(it, dayIndex) ==> r.days[dayIndex] == f(it.days[dayIndex])
    ensures !InRange(it, dayIndex) ==> r == it
  {
    it.(days := MapAt(it.days, dayIndex, f))
  }

  /** "Add Activity": the addressed day gains one blank activity at the end;
      its existing activities, in order, and everything else are unchanged. */
  function AddActivity(it: Itinerary, dayIndex: int, id: string): (r: Itinerary)
    ensures OnlyDayChanged(it, r, dayIndex)
    ensures InRange(it, dayIndex) ==>
              && r.days[dayIndex].transfers == it.days[dayIndex].transfers
              && |r.days[dayIndex].activities| == |it.days[dayIndex].activities| + 1
              && r.days[dayIndex].activities[..|it.days[dayIndex].activities|] == it.days[dayIndex].activities
              && r.days[dayIndex].activities[|it.days[dayIndex].activities|] == Activities.New(id)
    ensures !InRange(it, dayIndex) ==> r == it
  {
    EditDay(it, dayIndex, (d: Day) => d.(activities := d.activities + [Activities.New(id)]))
  }

  /** Editing field `e` of the activities with id `id` on the addressed day:
      the list keeps its length and order, matching activities change in that
      field only, and all other activities are untouched. */
  function UpdateActivity(it: Itinerary, dayIndex: int, id: string, e: Activities.Edit): (r: Itinerary)
    ensures OnlyDayChanged(it, r, dayIndex)
    ensures InRange(it, dayIndex) ==>
              && r.days[dayIndex].transfers == it.days[dayIndex].transfers
              && |r.days[dayIndex].activities| == |it.days[dayIndex].activities|
              && forall j, f :: 0 <= j < |it.days[dayIndex].activities| ==>
                   Activities.Get(r.days[dayIndex].activities[j], f)
                   == if it.days[dayIndex].activities[j].id == id && f == Activities.FieldOf(e)
                      then Activities.ValueOf(e)
                      else Activities.Get(it.days[dayIndex].activities[j], f)
    ensures !InRange(it, dayIndex) ==> r == it
  {
    EditDay(it, dayIndex,
      (d: Day) => d.(activities := UpdateById(d.activities, Activities.IdOf, id, Activities.Editor(e))))
  }

  /** Deleting the activities with id `id` from the addressed day: none with
      that id remain, every other one does, the list shrinks by the number of
      matches, and it is the order-keeping filter `WithoutId` of the old one. */
  function RemoveActivity(it: Itinerary, dayIndex: int, id: string): (r: Itinerary)
    ensures OnlyDayChanged(it, r, dayIndex)
    ensures InRange(it, dayIndex) ==>
              && r.days[dayIndex].transfers == it.days[dayIndex].transfers
              && (forall a :: a in r.days[dayIndex].activities ==> a in it.days[dayIndex].activities && a.id != id)
              && (forall a :: a in it.days[dayIndex].activities && a.id != id ==> a in r.days[dayIndex].activities)
              && |r.days[dayIndex].activities|
                 == |it.days[dayIndex].activities| - |WithId(it.days[dayIndex].activities, Activities.IdOf, id)|
              && r.days[dayIndex].activities == WithoutId(it.days[dayIndex].activities, Activities.IdOf, id)
    ensures !InRange(it, dayIndex) ==> r == it
  {
    var r := EditDay(it, dayIndex, (d: Day) => d.(activities := WithoutId(d.activities, Activities.IdOf, id)));
    if InRange(it, dayIndex) then
      WithoutIdMembers(it.days[dayIndex].activities, Activities.IdOf, id);
      r
    else r
  }

  /** "Add Transfer": the addressed day gains one blank transfer at the end. */
  function AddTransfer(it: Itinerary, dayIndex: int, id: string): (r: Itinerary)
    ensures OnlyDayChanged(it, r, dayIndex)
    ensures InRange(it, dayIndex) ==>
              && r.days[dayIndex].activities == it.days[dayIndex].activities
              && |r.days[dayIndex].transfers| == |it.days[dayIndex].transfers| + 1
              && r.days[dayIndex].transfers[..|it.days[dayIndex].transfers|] == it.days[dayIndex].transfers
              && r.days[dayIndex].transfers[|it.days[dayIndex].transfers|] == Transfers.New(id)
    ensures !InRange(it, dayIndex) ==> r == it
  {
    EditDay(it, dayIndex, (d: Day) => d.(transfers := d.transfers + [Transfers.New(id)]))
  }

  /** Editing field `e` of the transfers with id `id` on the addressed day. */
  function UpdateTransfer(it: Itinerary, dayIndex: int, id: string, e: Transfers.Edit): (r: Itinerary)
    ensures OnlyDayChanged(it, r, dayIndex)
    ensures InRange(it, dayIndex) ==>
              && r.days[dayIndex].activities == it.days[dayIndex].activities
              && |r.days[dayIndex].transfers| == |it.days[dayIndex].transfers|
              && forall j, f :: 0 <= j < |it.days[dayIndex].transfers| ==>
                   Transfers.Get(r.days[dayIndex].transfers[j], f)
                   == if it.days[dayIndex].transfers[j].id == id && f == Transfers.FieldOf(e)
                      then Transfers.ValueOf(e)
                      else Transfers.Get(it.days[dayIndex].transfers[j], f)
    ensures !InRange(it, dayIndex) ==> r == it
  {
    EditDay(it, dayIndex,
      (d: Day) => d.(transfers := UpdateById(d.transfers, Transfers.IdOf, id, Transfers.Editor(e))))
  }

  /** Deleting the transfers with id `id` from the addressed day. */
  function RemoveTransfer(it: Itinerary, dayIndex: int, id: string): (r: Itinerary)
    ensures OnlyDayChanged(it, r, dayIndex)
    ensures InRange(it, dayIndex) ==>
              && r.days[dayIndex].activities == it.days[dayIndex].activities
              && (forall t :: t in r.days[dayIndex].transfers ==> t in it.days[dayIndex].transfers && t.id != id)
              && (forall t :: t in it.days[dayIndex].transfers && t.id != id ==> t in r.days[dayIndex].transfers)
              && |r.days[dayIndex].transfers|
                 == |it.days[dayIndex].transfers| - |WithId(it.days[dayIndex].transfers, Transfers.IdOf, id)|
              && r.days[dayIndex].transfers == WithoutId(it.days[dayIndex].transfers, Transfers.IdOf, id)
    ensures !InRange(it, dayIndex) ==> r == it
  {
    var r := EditDay(it, dayIndex, (d: Day) => d.(transfers := WithoutId(d.transfers, Transfers.IdOf, id)));
    if InRange(it, dayIndex) then
      WithoutIdMembers(it.days[dayIndex].transfers, Transfers.IdOf, id);
      r
    else r
  }

  /** "Add Flight": one blank departure flight at the end of the flight list. */
  function AddFlight(it: Itinerary, id: string): (r: Itinerary)
    ensures r == it.(flights := r.flights)
    ensures |r.flights| == |it.flights| + 1
    ensures r.flights[..|it.flights|] == it.flights
    ensures r.flights[|it.flights|] == Flights.New(id)
  {
    it.(flights := it.flights + [Flights.New(id)])
  }

  /** Editing field `e` of the flights with id `id`. */
  function UpdateFlight(it: Itinerary, id: string, e: Flights.Edit): (r: Itinerary)
    ensures r == it.(flights := r.flights)
    ensures |r.flights| == |it.flights|
    ensures forall j, f :: 0 <= j < |it.flights| ==>
              Flights.Get(r.flights[j], f)
              == if it.flights[j].id == id && f == Flights.FieldOf(e)
                 then Flights.ValueOf(e)
                 else Flights.Get(it.flights[j], f)
  {
    it.(flights := UpdateById(it.flights, Flights.IdOf, id, Flights.Editor(e)))
  }

  /** Deleting the flights with id `id`. */
  function RemoveFlight(it: Itinerary, id: string): (r: Itinerary)
    ensures r == it.(flights := r.flights)
    ensures forall fl :: fl in r.flights ==> fl in it.flights && fl.id != id
    ensures forall fl :: fl in it.flights && fl.id != id ==> fl in r.flights
    ensures |r.flights| == |it.flights| - |WithId(it.flights, Flights.IdOf, id)|
    ensures r.flights == WithoutId(it.flights, Flights.IdOf, id)
  {
    WithoutIdMembers(it.flights, Flights.IdOf, id);
    it.(flights := WithoutId(it.flights, Flights.IdOf, id))
  }

  /** An id no item of the addressed day's activity list carries. */
  predicate FreshActivityId(it: Itinerary, dayIndex: int, id: string)
  {
    InRange(it, dayIndex) ==> !HasId(it.days[dayIndex].activities, Activities.IdOf, id)
  }

  /** An id no item of the addressed day's transfer list carries. */
  predicate FreshTransferId(it: Itinerary, dayIndex: int, id: string)
  {
    InRange(it, dayIndex) ==> !HasId(it.days[dayIndex].transfers, Transfers.IdOf, id)
  }

  /** Removing a just-added activity by its fresh id restores the itinerary. */
  lemma AddThenRemoveActivity(it: Itinerary, dayIndex: int, id: string)
    requires FreshActivityId(it, dayIndex, id)
    ensures RemoveActivity(AddActivity(it, dayIndex, id), dayIndex, id) == it
  {
    if InRange(it, dayIndex) {
      var acts := it.days[dayIndex].activities;
      WithoutIdAppend(acts, [Activities.New(id)], Activities.IdOf, id);
      assert WithoutId([Activities.New(id)], Activities.IdOf, id) == [];
      var r := RemoveActivity(AddActivity(it, dayIndex, id), dayIndex, id);
      assert r.days[dayIndex] == it.days[dayIndex];
      assert r.days == it.days;
    }
  }

  /** Removing a just-added transfer by its fresh id restores the itinerary. */
  lemma AddThenRemoveTransfer(it: Itinerary, dayIndex: int, id: string)
    requires FreshTransferId(it, dayIndex, id)
    ensures RemoveTransfer(AddTransfer(it, dayIndex, id), dayIndex, id) == it
  {
    if InRange(it, dayIndex) {
      var ts := it.days[dayIndex].transfers;
      WithoutIdAppend(ts, [Transfers.New(id)], Transfers.IdOf, id);
      assert WithoutId([Transfers.New(id)], Transfers.IdOf, id) == [];
      var r := RemoveTransfer(AddTransfer(it, dayIndex, id), dayIndex, id);
      assert r.days[dayIndex] == it.days[dayIndex];
      assert r.days == it.days;
    }
  }

  /** Removing a just-added flight by its fresh id restores the itinerary. */
  lemma AddThenRemoveFlight(it: Itinerary, id: string)
    requires !HasId(it.flights, Flights.IdOf, id)
    ensures RemoveFlight(AddFlight(it, id), id) == it
  {
    WithoutIdAppend(it.flights, [Flights.New(id)], Flights.IdOf, id);
    assert WithoutId([Flights.New(id)], Flights.IdOf, id) == [];
  }

  /** Updating or removing by an id that no activity carries changes nothing. */
  lemma MissingActivityIdIsNoOp(it: Itinerary, dayIndex: int, id: string, e: Activities.Edit)
    requires FreshActivityId(it, dayIndex, id)
    ensures UpdateActivity(it, dayIndex, id, e) == it
    ensures RemoveActivity(it, dayIndex, id) == it
  {
    if InRange(it, dayIndex) {
      assert UpdateActivity(it, dayIndex, id, e).days == it.days;
      assert RemoveActivity(it, dayIndex, id).days == it.days;
    }
  }

  /** Updating or removing by an id that no transfer carries changes nothing. */
  lemma MissingTransferIdIsNoOp(it: Itinerary, dayIndex: int, id: string, e: Transfers.Edit)
    requires FreshTransferId(it, dayIndex, id)
    ensures UpdateTransfer(it, dayIndex, id, e) == it
    ensures RemoveTransfer(it, dayIndex, id) == it
  {
    if InRange(it, dayIndex) {
      assert UpdateTransfer(it, dayIndex, id, e).days == it.days;
      assert RemoveTransfer(it, dayIndex, id).days == it.days;
    }
  }

  /** Updating or removing by an id that no flight carries changes nothing. */
  lemma MissingFlightIdIsNoOp(it: Itinerary, id: string, e: Flights.Edit)
    requires !HasId(it.flights, Flights.IdOf, id)
    ensures UpdateFlight(it, id, e) == it
    ensures RemoveFlight(it, id) == it
  {
  }

  /** Ids come from the clock and may repeat; a removal then deletes every
      item with that id, not just one. */
  lemma RemoveDeletesEveryCopy(it: Itinerary, id: string)
    requires it.flights == [Flights.New(id), Flights.New(id)]
    ensures RemoveFlight(it, id).flights == []
  {
  }
}

=== FILE: controller.dfy ===
/** Every change the builder form can make to the itinerary, as one event
    type, and the invariant those changes keep. */
module Controller {
  import opened Basics
  import opened Itineraries
  import Dates
  import Builder
  import Activities
  import Transfers
  import Flights

  /** One form event: a text input, a date input, or an item button/input. */
  datatype Op =
    | SetCustomerName(name: string)
    | SetCustomerEmail(email: string)
    | SetCustomerPhone(phone: string)
    | SetDestination(destination: string)
    | SetStartDate(start: Option<int>)
    | SetEndDate(end: Option<int>)
    | AddActivity(dayIndex: int, id: string)
    | UpdateActivity(dayIndex: int, id: string, activityEdit: Activities.Edit)
    | RemoveActivity(dayIndex: int, id: string)
    | AddTransfer(dayIndex: int, id: string)
    | UpdateTransfer(dayIndex: int, id: string, transferEdit: Transfers.Edit)
    | RemoveTransfer(dayIndex: int, id: string)
    | AddFlight(id: string)
    | UpdateFlight(id: string, flightEdit: Flights.Edit)
    | RemoveFlight(id: string)

  /** The itinerary after one event. A text input changes its own field
      and nothing else; only the date inputs touch the dates, and no form
      event touches the stored total or the customer fields of another
      input. */
  function Apply(it: Itinerary, op: Op): (r: Itinerary)
    ensures op.SetCustomerName? ==> r.customerName == op.name && r.(customerName := it.customerName) == it
    ensures op.SetCustomerEmail? ==> r.customerEmail == op.email && r.(customerEmail := it.customerEmail) == it
    ensures op.SetCustomerPhone? ==> r.customerPhone == op.phone && r.(customerPhone := it.customerPhone) == it
    ensures op.SetDestination? ==> r.destination == op.destination && r.(destination := it.destination) == it
    ensures !op.SetCustomerName? ==> r.customerName == it.customerName
    ensures !op.SetCustomerEmail? ==> r.customerEmail == it.customerEmail
    ensures !op.SetCustomerPhone? ==> r.customerPhone == it.customerPhone
    ensures !op.SetDestination? ==> r.destination == it.destination
    ensures !op.SetStartDate? && !op.SetEndDate? ==>
              r.startDate == it.startDate && r.endDate == it.endDate && r.totalDays == it.totalDays
    ensures r.totalPrice == it.totalPrice && r.duration == it.duration
  {
    match op
    case SetCustomerName(v) => it.(customerName := v)
    case SetCustomerEmail(v) => it.(customerEmail := v)
    case SetCustomerPhone(v) => it.(customerPhone := v)
    case SetDestination(v) => it.(destination := v)
    case SetStartDate(d) => Dates.SetStartDate(it, d)
    case SetEndDate(d) => Dates.SetEndDate(it, d)
    case AddActivity(k, id) => Builder.AddActivity(it, k, id)
    case UpdateActivity(k, id, e) => Builder.UpdateActivity(it, k, id, e)
    case RemoveActivity(k, id) => Builder.RemoveActivity(it, k, id)
    case AddTransfer(k, id) => Builder.AddTransfer(it, k, id)
    case UpdateTransfer(k, id, e) => Builder.UpdateTransfer(it, k, id, e)
    case RemoveTransfer(k, id) => Builder.RemoveTransfer(it, k, id)
    case AddFlight(id) => Builder.AddFlight(it, id)
    case UpdateFlight(id, e) => Builder.UpdateFlight(it, id, e)
    case RemoveFlight(id) => Builder.RemoveFlight(it, id)
  }

  /** The itinerary after a sequence of events, in order. */
  function Run(it: Itinerary, ops: seq<Op>): Itinerary
    decreases |ops|
  {
    if ops == [] then it else Run(Apply(it, ops[0]), ops[1..])
  }

  /** No event breaks the agreement of the day list with the day count. */
  lemma ApplyKeepsConsistent(it: Itinerary, op: Op)
    requires Consistent(it)
    ensures Consistent(Apply(it, op))
  {
  }

  /** A date event that leaves both dates chosen makes the day list agree
      with the day count, whatever the state before. */
  lemma DatesChosenMakeConsistent(it: Itinerary, op: Op)
    requires op.SetStartDate? || op.SetEndDate?
    requires Apply(it, op).startDate.Some? && Apply(it, op).endDate.Some?
    ensures Consistent(Apply(it, op))
  {
  }

  /** Once consistent, the itinerary stays consistent under any events. */
  lemma {:induction false} RunKeepsConsistent(it: Itinerary, ops: seq<Op>)
    requires Consistent(it)
    ensures Consistent(Run(it, ops))
    decreases |ops|
  {
    if ops != [] {
      ApplyKeepsConsistent(it, ops[0]);
      RunKeepsConsistent(Apply(it, ops[0]), ops[1..]);
    }
  }
}

=== FILE: dates.dfy ===
/** Day generation from the trip's date range. Dates are day ordinals; the
    millisecond timestamps the source subtracts are ordinal * MsPerDay, which
    is what `new Date("YYYY-MM-DD")` yields for a UTC-midnight date. */
module Dates {
  import opened Basics
  import opened Itineraries

  /** `1000 * 60 * 60 * 24`. */
  const MsPerDay: int := 86400000

  /** `Math.ceil(ms / MsPerDay)` for a non-negative span: the least number of
      whole days that covers `ms`. */
  function CeilDays(ms: nat): (q: nat)
    ensures ms <= q * MsPerDay
    ensures q == 0 || (q - 1) * MsPerDay < ms
  {
    (ms + MsPerDay - 1) / MsPerDay
  }

  /** `Math.ceil(Math.abs(end - start) / MsPerDay) + 1` on timestamps. */
  function DiffDays(startMs: int, endMs: int): (n: int)
    ensures n >= 1
    ensures Abs(endMs - startMs) <= (n - 1) * MsPerDay
    ensures n == 1 || (n - 2) * MsPerDay < Abs(endMs - startMs)
  {
    CeilDays(Abs(endMs - startMs)) + 1
  }

  /** The day count derived from two chosen dates. */
  function DayCount(start: int, end: int): int
  {
    DiffDays(start * MsPerDay, end * MsPerDay)
  }

  /** On whole dates the count is the inclusive span, never below 1. */
  lemma DayCountIsSpan(start: int, end: int)
    ensures DayCount(start, end) == Abs(end - start) + 1
  {
    var n := DayCount(start, end);
    var d := Abs(end - start);
    assert Abs(end * MsPerDay - start * MsPerDay) == d * MsPerDay;
    assert d * MsPerDay <= (n - 1) * MsPerDay;
    assert n == 1 || (n - 2) * MsPerDay < d * MsPerDay;
  }

  /** Swapping the two dates gives the same count: end before start is not rejected. */
  lemma DayCountSymmetric(start: int, end: int)
    ensures DayCount(start, end) == DayCount(end, start)
  {
    DayCountIsSpan(start, end);
    DayCountIsSpan(end, start);
  }

  /** The days `initializeDays` pushes: day `i + 1` dated `start + i`, both
      lists empty; a count of zero or less pushes nothing. */
  function GenerateDays(n: int, start: int): (days: seq<Day>)
    ensures |days| == if n < 0 then 0 else n
    ensures forall i :: 0 <= i < |days| ==> days[i].day == i + 1
    ensures DatedFrom(days, start)
    ensures AllEmpty(days)
  {
    if n <= 0 then [] else GenerateDays(n - 1, start) + [Day(n, start + n - 1, [], [])]
  }

  /** `initializeDays(numDays, start)`: replaces the whole day list and the day count. */
  function InitializeDays(it: Itinerary, numDays: int, start: int): (r: Itinerary)
    requires numDays >= 0
    ensures Consistent(r) && DatedFrom(r.days, start) && AllEmpty(r.days)
    ensures r.totalDays == numDays
    ensures r.(days := it.days, totalDays := it.totalDays) == it
  {
    it.(days := GenerateDays(numDays, start), totalDays := numDays)
  }

  /** The start-date input's change handler. The new date is stored; when
      both dates are then present the count is derived and the days are
      regenerated from the new start, discarding every planned item. */
  function SetStartDate(it: Itinerary, newStart: Option<int>): (r: Itinerary)
    ensures r.startDate == newStart
    ensures newStart.Some? && it.endDate.Some? ==>
              && r.totalDays == Abs(it.endDate.value - newStart.value) + 1
              && Consistent(r) && DatedFrom(r.days, newStart.value) && AllEmpty(r.days)
              && r.(days := it.days, totalDays := it.totalDays) == it.(startDate := newStart)
    ensures !(newStart.Some? && it.endDate.Some?) ==> r == it.(startDate := newStart)
  {
    var stored := it.(startDate := newStart);
    if newStart.Some? && it.endDate.Some? then
      var diffDays := DayCount(newStart.value, it.endDate.value);
      DayCountIsSpan(newStart.value, it.endDate.value);
      if diffDays > 0 then InitializeDays(stored.(totalDays := diffDays), diffDays, newStart.value)
      else stored
    else stored
  }

  /** The end-date input's change handler: the same derivation, with the days
      anchored at the stored start date. */
  function SetEndDate(it: Itinerary, newEnd: Option<int>): (r: Itinerary)
    ensures r.endDate == newEnd
    ensures it.startDate.Some? && newEnd.Some? ==>
              && r.totalDays == Abs(newEnd.value - it.startDate.value) + 1
              && Consistent(r) && DatedFrom(r.days, it.startDate.value) && AllEmpty(r.days)
              && r.(days := it.days, totalDays := it.totalDays) == it.(endDate := newEnd)
    ensures !(it.startDate.Some? && newEnd.Some?) ==> r == it.(endDate := newEnd)
  {
    var stored := it.(endDate := newEnd);
    if it.startDate.Some? && newEnd.Some? then
      var diffDays := DayCount(it.startDate.value, newEnd.value);
      DayCountIsSpan(it.startDate.value, newEnd.value);
      if diffDays > 0 then InitializeDays(stored.(totalDays := diffDays), diffDays, it.startDate.value)
      else stored
    else stored
  }

  /** With the end before the start the days still run forward from the
      start date: choosing day 10 then day 7 gives days dated 10..13. */
  lemma SwappedRangeRunsForward()
    ensures var it := SetEndDate(SetStartDate(Initial(), Some(10)), Some(7));
            |it.days| == 4 && it.days[0].date == 10 && it.days[3].date == 13
  {
    var it := SetEndDate(SetStartDate(Initial(), Some(10)), Some(7));
    assert it.startDate == Some(10);
  }

  /** Day dates are not kept in step with the start date: after clearing the
      end date, a new start date leaves the days dated from the old one. */
  lemma DatesCanGoStale()
    ensures var it := SetStartDate(SetEndDate(SetEndDate(SetStartDate(Initial(), Some(0)), Some(2)), None), Some(10));
            it.startDate == Some(10) && |it.days| == 3 && it.days[0].date == 0
  {
    var a := SetStartDate(Initial(), Some(0));
    var b := SetEndDate(a, Some(2));
    assert b.startDate == Some(0);
    var c := SetEndDate(b, None);
    assert c.days == b.days;
    var d := SetStartDate(c, Some(10));
    assert d.days == c.days;
  }
}

=== FILE: flights.dfy ===
/** The Flight record of the itinerary builder and its field edits. */
module Flights {
  import opened Basics

  /** One flight of the trip. `kind` is the source's `type` field, declared
      as "departure" | "return"; the preview receives it as decoded text, so
      it is kept as a string here. */
  datatype Flight = Flight(id: string, airline: string, flightNumber: string, departure: string,
                           arrival: string, departureTime: string, arrivalTime: string,
                           price: real, kind: string)

  /** The keys of a Flight record. */
  datatype Field = Id | Airline | FlightNumber | Departure | Arrival | DepartureTime
                 | ArrivalTime | Price | Kind

  /** A field name with a value of that field's type, as passed to `updateFlight`. */
  datatype Edit =
    | SetId(id: string)
    | SetAirline(airline: string)
    | SetFlightNumber(flightNumber: string)
    | SetDeparture(departure: string)
    | SetArrival(arrival: string)
    | SetDepartureTime(departureTime: string)
    | SetArrivalTime(arrivalTime: string)
    | SetPrice(price: real)
    | SetKind(kind: string)

  function IdOf(f: Flight): string { f.id }

  function PriceOf(f: Flight): real { f.price }

  /** Reads one field. */
  function Get(fl: Flight, f: Field): FieldValue
  {
    match f
    case Id => Text(fl.id)
    case Airline => Text(fl.airline)
    case FlightNumber => Text(fl.flightNumber)
    case Departure => Text(fl.departure)
    case Arrival => Text(fl.arrival)
    case DepartureTime => Text(fl.departureTime)
    case ArrivalTime => Text(fl.arrivalTime)
    case Price => Amount(fl.price)
    case Kind => Text(fl.kind)
  }

  function FieldOf(e: Edit): Field
  {
    match e
    case SetId(_) => Id
    case SetAirline(_) => Airline
    case SetFlightNumber(_) => FlightNumber
    case SetDeparture(_) => Departure
    case SetArrival(_) => Arrival
    case SetDepartureTime(_) => DepartureTime
    case SetArrivalTime(_) => ArrivalTime
    case SetPrice(_) => Price
    case SetKind(_) => Kind
  }

  function ValueOf(e: Edit): FieldValue
  {
    match e
    case SetId(v) => Text(v)
    case SetAirline(v) => Text(v)
    case SetFlightNumber(v) => Text(v)
    case SetDeparture(v) => Text(v)
    case SetArrival(v) => Text(v)
    case SetDepartureTime(v) => Text(v)
    case SetArrivalTime(v) => Text(v)
    case SetPrice(v) => Amount(v)
    case SetKind(v) => Text(v)
  }

  /** The blank flight that "Add Flight" appends: price 0, a departure flight. */
  function New(id: string): (fl: Flight)
    ensures Get(fl, Id) == Text(id)
    ensures Get(fl, Price) == Amount(0.0)
    ensures Get(fl, Kind) == Text("departure")
    ensures forall f :: f != Id && f != Price && f != Kind ==> Get(fl, f) == Text("")
  {
    Flight(id, "", "", "", "", "", "", 0.0, "departure")
  }

  /** `{ ...flight, [field]: value }`: only the edited field changes. */
  function Apply(fl: Flight, e: Edit): (r: Flight)
    ensures forall f :: Get(r, f) == if f == FieldOf(e) then ValueOf(e) else Get(fl, f)
  {
    match e
    case SetId(v) => fl.(id := v)
    case SetAirline(v) => fl.(airline := v)
    case SetFlightNumber(v) => fl.(flightNumber := v)
    case SetDeparture(v) => fl.(departure := v)
    case SetArrival(v) => fl.(arrival := v)
    case SetDepartureTime(v) => fl.(departureTime := v)
    case SetArrivalTime(v) => fl.(arrivalTime := v)
    case SetPrice(v) => fl.(price := v)
    case SetKind(v) => fl.(kind := v)
  }

  /** The rewrite an edit performs, as a function value for `map`. */
  function Editor(e: Edit): Flight -> Flight
  {
    fl => Apply(fl, e)
  }

  /** Two flights that agree on every field are equal. */
  lemma Extensional(a: Flight, b: Flight)
    requires forall f :: Get(a, f) == Get(b, f)
    ensures a == b
  {
    assert Get(a, Id) == Get(b, Id) && Get(a, Airline) == Get(b, Airline);
    assert Get(a, FlightNumber) == Get(b, FlightNumber) && Get(a, Departure) == Get(b, Departure);
    assert Get(a, Arrival) == Get(b, Arrival) && Get(a, DepartureTime) == Get(b, DepartureTime);
    assert Get(a, ArrivalTime) == Get(b, ArrivalTime) && Get(a, Price) == Get(b, Price);
    assert Get(a, Kind) == Get(b, Kind);
  }
}

=== FILE: handoff.dfy ===
/** Handing the itinerary from the builder to the preview page. The builder
    recomputes the total and opens the preview with the itinerary serialised
    into the `data` query parameter; the preview shows the stored
    `totalPrice` in the block headed "TOTAL". */
module Handoff {
  import opened Basics
  import opened Sequences
  import opened Itineraries
  import Flights
  import Pricing
  import Preview

  /** The builder's next state and the itinerary handed to the preview. */
  datatype Handoff = Handoff(next: Itinerary, handed: Itinerary)

  /** `handlePreview` as written: the total is recomputed into the NEXT
      state, but the itinerary serialised in the same call is the current
      one, whose `totalPrice` is whatever the previous computation left. */
  function HandlePreviewAsWritten(it: Itinerary): (h: Handoff)
    ensures h.handed == it
    ensures h.next.totalPrice == Pricing.TotalPrice(it)
    ensures h.next == h.handed.(totalPrice := Pricing.TotalPrice(it))
  {
    Handoff(it.(totalPrice := Pricing.TotalPrice(it)), it)
  }

  /** `handlePreview` as intended: the handed-off itinerary carries the
      total recomputed from its own items. */
  function HandlePreview(it: Itinerary): (h: Handoff)
    ensures h.handed.totalPrice == Pricing.TotalPrice(h.handed)
    ensures h.handed.(totalPrice := it.totalPrice) == it
    ensures h.next == h.handed
  {
    var r := it.(totalPrice := Pricing.TotalPrice(it));
    assert Pricing.TotalPrice(r) == Pricing.TotalPrice(it);
    Handoff(r, r)
  }

  /** The total the preview page displays. */
  function TotalShown(it: Itinerary): real
  {
    it.totalPrice
  }

  /** A one-flight itinerary whose total has not been computed yet. */
  function OneFlight(): Itinerary
  {
    Initial().(flights := [Flights.New("1").(price := 100.0)])
  }

  /** As written, the first preview of a fresh itinerary with one flight
      priced 100 shows a total of 0, while its cards add up to 100. */
  lemma StaleTotalHandedOff()
    ensures TotalShown(HandlePreviewAsWritten(OneFlight()).handed) == 0.0
    ensures Sum(Preview.Render(HandlePreviewAsWritten(OneFlight()).handed), Preview.PriceShown) == 100.0
  {
    var it := OneFlight();
    assert Sum(it.flights, Flights.PriceOf) == 100.0 by {
      assert it.flights[1..] == [];
    }
    assert Pricing.TotalPrice(it) == 100.0;
    Preview.RenderShowsPrice(it);
  }

  /** As written, a second click with no edit in between hands off the
      correct total, since the first click's recomputation is then the
      current state. */
  lemma {:induction false} SecondClickIsCurrent(it: Itinerary)
    ensures var h := HandlePreviewAsWritten(HandlePreviewAsWritten(it).next).handed;
            TotalShown(h) == Pricing.TotalPrice(h)
  {
    var first := HandlePreviewAsWritten(it).next;
    assert Pricing.TotalPrice(first) == Pricing.TotalPrice(it);
  }

  /** With the corrected handoff, the preview's total agrees with the prices
      on its own cards, whatever the builder's state was. */
  lemma TotalShownMatchesCards(it: Itinerary)
    ensures var h := HandlePreview(it).handed;
            TotalShown(h) == Sum(Preview.Render(h), Preview.PriceShown)
  {
    Preview.RenderShowsPrice(HandlePreview(it).handed);
  }

  /** With the corrected handoff and the corrected reading of the
      parameter, the preview holds exactly the itinerary handed off. The
      query-string parser returns the serialised text the builder
      percent-encoded, so the page parses `stringify(h)`; JSON
      serialisation is a parameter that parsing inverts and that never
      yields the empty string. */
  lemma HandoffRoundTrip(it: Itinerary, stringify: Itinerary -> string, parse: string -> Option<Itinerary>)
    requires forall x :: parse(stringify(x)) == Some(x)
    requires forall x :: stringify(x) != ""
    ensures var h := HandlePreview(it).handed;
            Preview.ReadData(Some(stringify(h)), parse) == Some(h)
  {
    var h := HandlePreview(it).handed;
    assert parse(stringify(h)) == Some(h);
    assert stringify(h) != "";
  }
}

=== FILE: itineraries.dfy ===
/** The root aggregate of the builder: days (owning activities and
    transfers), flights, trip and customer fields. */
module Itineraries {
  import opened Basics
  import Activities
  import Transfers
  import Flights

  /** One day of the trip. `day` is the 1-based number shown to the user and
      `date` a calendar date as a day ordinal; both lists are in display order. */
  datatype Day = Day(day: int, date: int, activities: seq<Activities.Activity>,
                     transfers: seq<Transfers.Transfer>)

  /** The whole document. Empty date inputs are `None`. */
  datatype Itinerary = Itinerary(
    destination: string,
    duration: string,
    startDate: Option<int>,
    endDate: Option<int>,
    totalDays: int,
    days: seq<Day>,
    flights: seq<Flights.Flight>,
    customerName: string,
    customerEmail: string,
    customerPhone: string,
    totalPrice: real)

  /** The state the builder starts from: no dates, no days, one nominal day. */
  function Initial(): (it: Itinerary)
    ensures it.days == [] && it.flights == []
    ensures it.startDate.None? && it.endDate.None?
    ensures it.totalDays == 1 && it.totalPrice == 0.0
    ensures it.destination == "" && it.duration == "" && it.customerName == ""
    ensures it.customerEmail == "" && it.customerPhone == ""
  {
    Itinerary("", "", None, None, 1, [], [], "", "", "", 0.0)
  }

  /** The day list matches the day count and is numbered 1, 2, 3, ... */
  predicate Consistent(it: Itinerary)
  {
    && |it.days| == it.totalDays
    && forall i :: 0 <= i < |it.days| ==> it.days[i].day == i + 1
  }

  /** Consecutive calendar dates starting at `start`. */
  predicate DatedFrom(days: seq<Day>, start: int)
  {
    forall i :: 0 <= i < |days| ==> days[i].date == start + i
  }

  /** Every day has neither activities nor transfers. */
  predicate AllEmpty(days: seq<Day>)
  {
    forall i :: 0 <= i < |days| ==> days[i].activities == [] && days[i].transfers == []
  }

  /** The starting state claims one day but holds none, so the day count and
      the day list only agree once both dates have been chosen. */
  lemma InitialNotConsistent()
    ensures !Consistent(Initial())
  {
  }
}

=== FILE: navigation.dfy ===
/** The three-step wizard: 1 basic information, 2 daily itinerary,
    3 flights and preview. */
module Navigation {
  import opened Basics
  import opened Itineraries
  import Controller

  predicate ValidStep(step: int)
  {
    1 <= step <= 3
  }

  /** The Next button's `disabled` condition: step 1 needs a destination, a
      start date and a customer name; step 2 needs an activity on every day. */
  predicate NextDisabled(step: int, it: Itinerary)
  {
    || (step == 1 && (it.destination == "" || it.startDate.None? || it.customerName == ""))
    || (step == 2 && exists i :: 0 <= i < |it.days| && it.days[i].activities == [])
  }

  /** A click on the Next button, the Previous button, or one of the numbered
      step buttons. */
  datatype Event = Next | Previous | Jump(target: int)

  /** The step a click leads to, or None when the clicked control is not
      shown (Next at step 3, Previous at step 1, a step number other than
      1, 2, 3) or is disabled. */
  function Navigate(step: int, it: Itinerary, ev: Event): (r: Option<int>)
    ensures ValidStep(step) && r.Some? ==> ValidStep(r.value)
    ensures r.Some? && r.value > step ==> ev.Jump? || (r.value == step + 1 && !NextDisabled(step, it))
    ensures ev.Next? ==> (r.Some? <==> step < 3 && !NextDisabled(step, it)) && (r.Some? ==> r.value == step + 1)
    ensures ev.Previous? ==> (r.Some? <==> step > 1) && (r.Some? ==> r.value == step - 1)
    ensures ev.Jump? ==> (r.Some? <==> 1 <= ev.target <= 3) && (r.Some? ==> r.value == ev.target)
  {
    match ev
    case Next => if step < 3 && !NextDisabled(step, it) then Some(step + 1) else None
    case Previous => if step > 1 then Some(step - 1) else None
    case Jump(k) => if k in [1, 2, 3] then Some(k) else None
  }

  /** From step 1, Next works exactly when destination, start date and
      customer name are all filled in. */
  lemma NextFromBasics(it: Itinerary)
    ensures Navigate(1, it, Next).Some?
            <==> it.destination != "" && it.startDate.Some? && it.customerName != ""
    ensures Navigate(1, it, Next).Some? ==> Navigate(1, it, Next).value == 2
  {
  }

  /** From step 2, Next works exactly when every day has an activity; with no
      days at all it is enabled. */
  lemma NextFromDays(it: Itinerary)
    ensures Navigate(2, it, Next).Some?
            <==> forall i :: 0 <= i < |it.days| ==> |it.days[i].activities| >= 1
    ensures Navigate(2, it, Next).Some? ==> Navigate(2, it, Next).value == 3
  {
    if Navigate(2, it, Next).None? {
      var i :| 0 <= i < |it.days| && it.days[i].activities == [];
      assert |it.days[i].activities| == 0;
    }
  }

  /** Step 3 shows the preview button instead of Next; Previous is shown
      exactly above step 1. */
  lemma EndpointsOfTheWizard(it: Itinerary, step: int)
    ensures Navigate(3, it, Next).None?
    ensures Navigate(step, it, Previous).Some? <==> step > 1
    ensures Navigate(step, it, Previous).Some? ==> Navigate(step, it, Previous).value == step - 1
  {
  }

  /** The numbered buttons skip the Next guard: from the start, step 3 is one
      click away although Next is disabled. */
  lemma JumpBypassesGuard()
    ensures Navigate(1, Initial(), Next).None?
    ensures Navigate(1, Initial(), Jump(3)) == Some(3)
  {
  }

  /** The builder page's state: the current step and the itinerary. */
  datatype Session = Session(step: int, it: Itinerary)

  /** A user action: a navigation click or a form change. */
  datatype Action = Click(ev: Event) | Form(op: Controller.Op)

  function Perform(s: Session, a: Action): Session
  {
    match a
    case Click(ev) =>
      (match Navigate(s.step, s.it, ev)
       case Some(next) => s.(step := next)
       case None => s)
    case Form(op) => s.(it := Controller.Apply(s.it, op))
  }

  function PerformAll(s: Session, actions: seq<Action>): Session
    decreases |actions|
  {
    if actions == [] then s else PerformAll(Perform(s, actions[0]), actions[1..])
  }

  /** The page starts at step 1 and no sequence of actions leaves {1, 2, 3}. */
  lemma {:induction false} StepStaysInRange(s: Session, actions: seq<Action>)
    requires ValidStep(s.step)
    ensures ValidStep(PerformAll(s, actions).step)
    decreases |actions|
  {
    if actions != [] {
      StepStaysInRange(Perform(s, actions[0]), actions[1..]);
    }
  }
}

=== FILE: numeric_input.dfy ===
/** Coercion of the number inputs: prices go through `parseFloat(v) || 0`
    and capacities through `parseInt(v) || 1`. `parseInt` is modelled as
    section 19.2.5 of ECMA-262 defines it for an absent radix; the result of
    `parseFloat` is taken as given, with None standing for NaN. */
module NumericInput {
  import opened Basics

  /** ECMAScript WhiteSpace and LineTerminator code points. */
  predicate IsSpace(c: char)
  {
    || c == '\t' || c == '\n' || c == '\U{B}' || c == '\U{C}' || c == '\r' || c == ' '
    || c == '\U{A0}' || c == '\U{1680}' || ('\U{2000}' <= c <= '\U{200A}')
    || c == '\U{2028}' || c == '\U{2029}' || c == '\U{202F}' || c == '\U{205F}'
    || c == '\U{3000}' || c == '\U{FEFF}'
  }

  /** Drops leading white space. */
  function TrimStart(s: string): (r: string)
    ensures |r| <= |s| && r == s[|s| - |r|..]
    ensures forall i :: 0 <= i < |s| - |r| ==> IsSpace(s[i])
    ensures r == [] || !IsSpace(r[0])
  {
    if s != [] && IsSpace(s[0]) then TrimStart(s[1..]) else s
  }

  /** The value of `c` as a digit in base `radix` (10 or 16), if it is one. */
  function DigitValue(c: char, radix: int): Option<int>
  {
    var v :=
      if '0' <= c <= '9' then c as int - '0' as int
      else if 'a' <= c <= 'z' then c as int - 'a' as int + 10
      else if 'A' <= c <= 'Z' then c as int - 'A' as int + 10
      else 36;
    if v < radix then Some(v) else None
  }

  predicate IsDigit(c: char, radix: int)
  {
    DigitValue(c, radix).Some?
  }

  /** The longest prefix of `s` made of base-`radix` digits. */
  function DigitPrefix(s: string, radix: int): (r: string)
    ensures |r| <= |s| && r == s[..|r|]
    ensures forall i :: 0 <= i < |r| ==> IsDigit(r[i], radix)
    ensures |r| < |s| ==> !IsDigit(s[|r|], radix)
  {
    if s != [] && IsDigit(s[0], radix) then [s[0]] + DigitPrefix(s[1..], radix) else []
  }

  /** The number a string of base-`radix` digits denotes, most significant first. */
  function Value(digits: string, radix: int): nat
    requires forall i :: 0 <= i < |digits| ==> IsDigit(digits[i], radix)
  {
    if digits == [] then 0
    else
      var last := digits[|digits| - 1];
      assert IsDigit(last, radix);
      Value(digits[..|digits| - 1], radix) * radix + DigitValue(last, radix).value
  }

  /** The digits after any sign: base 16 after "0x" or "0X", else base 10,
      read as the longest run of digits; None (NaN) when that run is empty.
      Trailing characters are ignored. */
  function ReadUnsigned(u: string): Option<int>
  {
    var hex := |u| >= 2 && u[0] == '0' && (u[1] == 'x' || u[1] == 'X');
    var z := if hex then DigitPrefix(u[2..], 16) else DigitPrefix(u, 10);
    if z == [] then None
    else if hex then Some(Value(z, 16))
    else Some(Value(z, 10))
  }

  /** `Number.parseInt(s)`: skip white space, read an optional sign, then
      the unsigned part, negated after a minus sign. */
  function ParseInt(s: string): (r: Option<int>)
    ensures TrimStart(s) == [] ==> r.None?
    ensures r.Some? && r.value < 0 ==> TrimStart(s)[0] == '-'
    ensures r.Some? && r.value > 0 ==> TrimStart(s)[0] != '-'
  {
    var t := TrimStart(s);
    var negative := t != [] && t[0] == '-';
    var u := if t != [] && (t[0] == '-' || t[0] == '+') then t[1..] else t;
    match ReadUnsigned(u)
    case None => None
    case Some(v) => Some(if negative then -v else v)
  }

  /** The decimal digit '0' to '9' for 0 to 9. */
  function DigitChar(d: int): (c: char)
    requires 0 <= d < 10
    ensures DigitValue(c, 10) == Some(d)
  {
    ('0' as int + d) as char
  }

  /** The decimal digits of `n`, without leading zeros. */
  function Digits(n: nat): (r: string)
    ensures r != []
    ensures forall i :: 0 <= i < |r| ==> IsDigit(r[i], 10)
    ensures Value(r, 10) == n
    ensures n == 0 || r[0] != '0'
  {
    if n < 10 then [DigitChar(n)] else Digits(n / 10) + [DigitChar(n % 10)]
  }

  /** The decimal text of an integer, as a number input holds it. */
  function IntToString(n: int): string
  {
    if n < 0 then "-" + Digits(-n) else Digits(n)
  }

  /** A decimal digit is one of '0' to '9'. */
  lemma DecimalDigit(c: char)
    requires IsDigit(c, 10)
    ensures '0' <= c <= '9'
  {
  }

  /** A string made only of digits is its own digit prefix. */
  lemma AllDigits(s: string, radix: int)
    requires forall i :: 0 <= i < |s| ==> IsDigit(s[i], radix)
    ensures DigitPrefix(s, radix) == s
  {
    assert |DigitPrefix(s, radix)| == |s|;
  }

  /** Text that starts with neither white space, a sign nor a hexadecimal
      prefix and is all decimal digits is read as its value. */
  lemma ParseUnsigned(u: string)
    requires u != [] && !IsSpace(u[0]) && u[0] != '-' && u[0] != '+'
    requires !(|u| >= 2 && u[0] == '0' && (u[1] == 'x' || u[1] == 'X'))
    requires DigitPrefix(u, 10) == u
    ensures ParseInt(u) == Some(Value(u, 10))
  {
    assert TrimStart(u) == u;
  }

  /** A run of decimal digits reads back as its value. */
  lemma ParseDigits(ds: string)
    requires ds != []
    requires forall i :: 0 <= i < |ds| ==> IsDigit(ds[i], 10)
    ensures ParseInt(ds) == Some(Value(ds, 10))
  {
    assert !IsSpace(ds[0]) && ds[0] != '-' && ds[0] != '+' by {
      DecimalDigit(ds[0]);
    }
    assert !(|ds| >= 2 && ds[0] == '0' && (ds[1] == 'x' || ds[1] == 'X')) by {
      if |ds| >= 2 {
        DecimalDigit(ds[1]);
      }
    }
    AllDigits(ds, 10);
    ParseUnsigned(ds);
  }

  /** Text that does not start with white space is kept whole. */
  lemma NoLeadingSpace(s: string)
    requires s != [] && !IsSpace(s[0])
    ensures TrimStart(s) == s
  {
  }

  /** Text starting with a decimal digit, and the same text behind a minus
      sign, have no leading white space. */
  lemma SignedText(t: string)
    requires t != [] && '0' <= t[0] <= '9'
    ensures var s := "-" + t;
            && TrimStart(s) == s && s != [] && s[0] == '-' && s[1..] == t
            && TrimStart(t) == t && t[0] != '-' && t[0] != '+'
  {
    var s := "-" + t;
    assert s[0] == '-' && s[1..] == t;
    NoLeadingSpace(s);
    NoLeadingSpace(t);
  }

  /** A minus sign in front of text that starts with a decimal digit
      negates what the text reads as. */
  lemma ParseNegation(t: string)
    requires t != [] && '0' <= t[0] <= '9'
    ensures ParseInt("-" + t) == match ParseInt(t) case None => None case Some(v) => Some(-v)
  {
    SignedText(t);
  }

  /** Parsing reads back every integer written in decimal. */
  lemma ParseIntToString(n: int)
    ensures ParseInt(IntToString(n)) == Some(n)
  {
    if n < 0 {
      var ds := Digits(-n);
      ParseDigits(ds);
      DecimalDigit(ds[0]);
      ParseNegation(ds);
    } else {
      ParseDigits(Digits(n));
    }
  }


  /** `Number.parseInt(v) || 1`: NaN and 0 become 1, every other integer,
      negatives included, is kept. */
  function CoerceCapacity(input: string): (c: int)
    ensures c != 0
    ensures ParseInt(input).Some? && ParseInt(input).value != 0 ==> c == ParseInt(input).value
    ensures ParseInt(input).None? || ParseInt(input) == Some(0) ==> c == 1
  {
    match ParseInt(input)
    case None => 1
    case Some(v) => if v == 0 then 1 else v
  }

  /** A capacity typed in decimal is stored as typed, except 0, which becomes 1. */
  lemma CapacityOfTypedNumber(n: int)
    ensures CoerceCapacity(IntToString(n)) == if n == 0 then 1 else n
  {
    ParseIntToString(n);
  }

  /** `Number.parseFloat(v) || 0` given parseFloat's result: NaN becomes 0,
      every number, negatives included, is kept. */
  function CoercePrice(parsed: Option<real>): (p: real)
    ensures parsed.None? ==> p == 0.0
    ensures parsed.Some? ==> p == parsed.value
  {
    match parsed
    case None => 0.0
    case Some(v) => if v == 0.0 then 0.0 else v
  }

  /** An empty capacity input stores 1. */
  lemma EmptyCapacityIsOne()
    ensures CoerceCapacity("") == 1
  {
  }

  /** Text after the leading digits is ignored: "1e3" stores 1. */
  lemma CapacityIgnoresTrailingText()
    ensures CoerceCapacity("1e3") == 1
  {
    var s := "1e3";
    assert !IsSpace(s[0]);
    assert TrimStart(s) == s;
    assert !IsDigit('e', 10);
    assert DigitPrefix(s[1..], 10) == [];
    assert DigitPrefix(s, 10) == "1";
    assert Value("1", 10) == 1;
    assert ParseInt(s) == Some(1);
  }
}

=== FILE: preview.dfy ===
/** The preview page: how it obtains the itinerary and what it derives from
    it for display. Styling, images and locale date formatting are not
    modelled; the document is the sequence of blocks it shows, in order. */
module Preview {
  import opened Basics
  import opened Sequences
  import opened Itineraries
  import Activities
  import Transfers
  import Flights
  import Pricing
  import NumericInput

  /* ---------- Small display derivations ---------- */

  /** The nights shown next to the day count: one fewer, never clamped. */
  function NightCount(totalDays: int): int
  {
    totalDays - 1
  }

  /** A negative night count appears exactly when the day count is below 1. */
  lemma NightsNegativeOnlyWithoutDays(totalDays: int)
    ensures NightCount(totalDays) < 0 <==> totalDays < 1
    ensures NightCount(totalDays) + 1 == totalDays
  {
  }

  /** The header line "{totalDays} Days {totalDays - 1} Nights". */
  function DurationLine(totalDays: int): string
  {
    NumericInput.IntToString(totalDays) + " Days " + NumericInput.IntToString(NightCount(totalDays)) + " Nights"
  }

  /** A zero-day itinerary is announced with minus one nights. */
  lemma ZeroDaysShowMinusOneNights()
    ensures DurationLine(0) == "0 Days -1 Nights"
  {
    assert NumericInput.Digits(0) == "0";
    assert NumericInput.Digits(1) == "1";
  }

  /** The activity time cell: the time when one is set, "TBD" otherwise. */
  function TimeLabel(time: string): (r: string)
    ensures r != []
    ensures time != [] ==> r == time
    ensures time == [] ==> r == "TBD"
  {
    if time != [] then time else "TBD"
  }

  /** Position of the first `c` in `s`, or `|s|` when `c` does not occur. */
  function IndexOf(s: string, c: char): (k: nat)
    ensures k <= |s|
    ensures k < |s| ==> s[k] == c
    ensures forall j :: 0 <= j < k ==> s[j] != c
  {
    if s == [] then 0 else if s[0] == c then 0 else 1 + IndexOf(s[1..], c)
  }

  /** `s.replace(pattern, replacement)` for a one-character string pattern:
      only the first occurrence is replaced. */
  function ReplaceFirst(s: string, pattern: char, replacement: char): (r: string)
    ensures |r| == |s|
    ensures forall i :: 0 <= i < |s| ==> r[i] == if i == IndexOf(s, pattern) then replacement else s[i]
  {
    if s == [] then []
    else if s[0] == pattern then [replacement] + s[1..]
    else [s[0]] + ReplaceFirst(s[1..], pattern, replacement)
  }

  /** Upper case of a Latin letter; every other character is kept. */
  function UpperChar(c: char): char
  {
    if 'a' <= c <= 'z' then (c as int - 32) as char else c
  }

  /** `s.toUpperCase()` on Latin letters. */
  function ToUpper(s: string): (r: string)
    ensures |r| == |s|
    ensures forall i :: 0 <= i < |s| ==> r[i] == UpperChar(s[i])
  {
    if s == [] then [] else [UpperChar(s[0])] + ToUpper(s[1..])
  }

  /** The transfer heading `type.replace("-", " ").toUpperCase()`: the first
      hyphen becomes a space, later hyphens stay, and letters are upper-cased. */
  function TransferLabel(kind: string): (r: string)
    ensures |r| == |kind|
    ensures IndexOf(kind, '-') < |kind| ==> r[IndexOf(kind, '-')] == ' '
    ensures forall i :: 0 <= i < |kind| && i != IndexOf(kind, '-') ==> r[i] == UpperChar(kind[i])
    ensures forall i :: 0 <= i < |kind| && i > IndexOf(kind, '-') && kind[i] == '-' ==> r[i] == '-'
    ensures (forall i :: 0 <= i < |kind| ==> kind[i] != '-') ==> r == ToUpper(kind)
  {
    ToUpper(ReplaceFirst(kind, '-', ' '))
  }

  /** Only the first occurrence of the pattern is replaced. */
  lemma {:induction false} ReplaceFirstSplit(a: string, b: string, p: char, q: char)
    requires forall i :: 0 <= i < |a| ==> a[i] != p
    ensures ReplaceFirst(a + [p] + b, p, q) == a + [q] + b
  {
    if a == [] {
      assert a + [p] + b == [p] + b;
      assert a + [q] + b == [q] + b;
    } else {
      assert (a + [p] + b)[1..] == a[1..] + [p] + b;
      ReplaceFirstSplit(a[1..], b, p, q);
      assert [a[0]] + (a[1..] + [q] + b) == a + [q] + b;
    }
  }

  lemma SpaceInPrivateCar()
    ensures ReplaceFirst("private-car", '-', ' ') == "private car"
  {
    assert "private-car" == "private" + ['-'] + "car";
    assert "private car" == "private" + [' '] + "car";
    ReplaceFirstSplit("private", "car", '-', ' ');
  }

  /** Upper-casing works piecewise. */
  lemma {:induction false} ToUpperAppend(a: string, b: string)
    ensures ToUpper(a + b) == ToUpper(a) + ToUpper(b)
  {
    if a != [] {
      assert (a + b)[1..] == a[1..] + b;
      ToUpperAppend(a[1..], b);
    } else {
      assert a + b == b;
    }
  }

  /** "private car" is upper-cased piece by piece: "priv", "ate " and "car". */
  lemma ToUpperPriv()
    ensures ToUpper("priv") == "PRIV"
  {
    var r := ToUpper("priv");
    assert r[0] == 'P' && r[1] == 'R' && r[2] == 'I' && r[3] == 'V';
  }

  lemma ToUpperAte()
    ensures ToUpper("ate ") == "ATE "
  {
    var r := ToUpper("ate ");
    assert r[0] == 'A' && r[1] == 'T' && r[2] == 'E' && r[3] == ' ';
  }

  lemma ToUpperCar()
    ensures ToUpper("car") == "CAR"
  {
    var r := ToUpper("car");
    assert r[0] == 'C' && r[1] == 'A' && r[2] == 'R';
  }

  lemma PrivateCarPieces()
    ensures "private car" == "priv" + ("ate " + "car")
    ensures "PRIV" + ("ATE " + "CAR") == "PRIVATE CAR"
  {
  }

  lemma ToUpperPrivateCar()
    ensures ToUpper("private car") == "PRIVATE CAR"
  {
    PrivateCarPieces();
    ToUpperAppend("priv", "ate " + "car");
    ToUpperAppend("ate ", "car");
    ToUpperPriv();
    ToUpperAte();
    ToUpperCar();
  }

  /** "private-car" is shown as "PRIVATE CAR". */
  lemma PrivateCarLabel()
    ensures TransferLabel("private-car") == "PRIVATE CAR"
  {
    SpaceInPrivateCar();
    ToUpperPrivateCar();
  }

  /** A type without a hyphen is only upper-cased: "taxi" is shown as "TAXI". */
  lemma TaxiLabel()
    ensures TransferLabel("taxi") == "TAXI"
  {
    var t, e := "taxi", "TAXI";
    assert forall i :: 0 <= i < |t| ==> t[i] != '-';
    var r := TransferLabel(t);
    forall i | 0 <= i < |e|
      ensures r[i] == e[i]
    {
      assert r[i] == UpperChar(t[i]);
    }
  }

  /** The flight heading: "Departure Flight" exactly for the type
      "departure", "Return Flight" for anything else. */
  function FlightHeading(kind: string): (h: string)
    ensures h == "Departure Flight" <==> kind == "departure"
    ensures kind != "departure" ==> h == "Return Flight"
  {
    (if kind == "departure" then "Departure" else "Return") + " Flight"
  }

  /* ---------- The rendered document ---------- */

  /** One displayed element, in document order. */
  datatype Block =
    | DayHeading(day: int, date: int)
    | ActivityCard(timeLabel: string, activity: Activities.Activity)
    | TransferCard(caption: string, transfer: Transfers.Transfer)
    | FlightsHeading
    | FlightCard(heading: string, flight: Flights.Flight)

  function ActivityCards(acts: seq<Activities.Activity>): (r: seq<Block>)
    ensures |r| == |acts|
    ensures forall i :: 0 <= i < |r| ==> r[i].ActivityCard?
    ensures forall i :: 0 <= i < |acts| ==> r[i] == ActivityCard(TimeLabel(acts[i].time), acts[i])
  {
    if acts == [] then [] else [ActivityCard(TimeLabel(acts[0].time), acts[0])] + ActivityCards(acts[1..])
  }

  function TransferCards(ts: seq<Transfers.Transfer>): (r: seq<Block>)
    ensures |r| == |ts|
    ensures forall i :: 0 <= i < |r| ==> r[i].TransferCard?
    ensures forall i :: 0 <= i < |ts| ==> r[i] == TransferCard(TransferLabel(ts[i].kind), ts[i])
  {
    if ts == [] then [] else [TransferCard(TransferLabel(ts[0].kind), ts[0])] + TransferCards(ts[1..])
  }

  function FlightCards(fs: seq<Flights.Flight>): (r: seq<Block>)
    ensures |r| == |fs|
    ensures forall i :: 0 <= i < |r| ==> r[i].FlightCard?
    ensures forall i :: 0 <= i < |fs| ==> r[i] == FlightCard(FlightHeading(fs[i].kind), fs[i])
  {
    if fs == [] then [] else [FlightCard(FlightHeading(fs[0].kind), fs[0])] + FlightCards(fs[1..])
  }

  /** Where the parts of a heading followed by two runs of blocks land. */
  lemma SectionIndex(h: Block, a: seq<Block>, t: seq<Block>)
    ensures var r := [h] + a + t;
            && |r| == 1 + |a| + |t| && r[0] == h
            && (forall i :: 1 <= i <= |a| ==> r[i] == a[i - 1])
            && (forall i :: 1 + |a| <= i < |r| ==> r[i] == t[i - 1 - |a|])
  {
  }

  /** A block that belongs to a day's section. */
  predicate DayBlock(b: Block)
  {
    b.DayHeading? || b.ActivityCard? || b.TransferCard?
  }

  lemma DayBlocksAppend(a: seq<Block>, b: seq<Block>)
    requires forall i :: 0 <= i < |a| ==> DayBlock(a[i])
    requires forall i :: 0 <= i < |b| ==> DayBlock(b[i])
    ensures forall i :: 0 <= i < |a + b| ==> DayBlock((a + b)[i])
  {
  }

  /** One day's section: its heading, then all its activities, then all its
      transfers; no transfer is shown before an activity. */
  function RenderDay(d: Day): (r: seq<Block>)
    ensures |r| == 1 + |d.activities| + |d.transfers|
    ensures r[0] == DayHeading(d.day, d.date)
    ensures forall i :: 1 <= i <= |d.activities| ==> r[i].ActivityCard?
    ensures forall i :: 1 + |d.activities| <= i < |r| ==> r[i].TransferCard?
    ensures forall i :: 1 <= i <= |d.activities| ==> r[i] == ActivityCards(d.activities)[i - 1]
    ensures forall i :: 1 + |d.activities| <= i < |r| ==> r[i] == TransferCards(d.transfers)[i - 1 - |d.activities|]
  {
    var h := DayHeading(d.day, d.date);
    var a := ActivityCards(d.activities);
    var t := TransferCards(d.transfers);
    SectionIndex(h, a, t);
    [h] + a + t
  }

  /** The day sections hold no flight block. */
  function RenderDays(days: seq<Day>): (r: seq<Block>)
    ensures forall i :: 0 <= i < |r| ==> DayBlock(r[i])
  {
    if days == [] then []
    else
      var first, rest := RenderDay(days[0]), RenderDays(days[1..]);
      assert forall i :: 0 <= i < |first| ==> DayBlock(first[i]);
      DayBlocksAppend(first, rest);
      first + rest
  }

  /** The flight section, present only when there are flights. */
  function RenderFlights(fs: seq<Flights.Flight>): (r: seq<Block>)
    ensures fs == [] <==> r == []
  {
    if |fs| > 0 then [FlightsHeading] + FlightCards(fs) else []
  }

  /** The page body built from the day list and the flight list: the days
      in list order, then the flight section. The header, the trip overview
      and the total block also show fields of the itinerary; of those only
      the night count (`NightCount`) and the total are modelled. */
  function Render(it: Itinerary): seq<Block>
  {
    RenderDays(it.days) + RenderFlights(it.flights)
  }

  /* ---------- Reading the rendered document back ---------- */

  /** The elements of one kind, in document order. */
  function Project<U>(bs: seq<Block>, pick: Block -> Option<U>): seq<U>
  {
    if bs == [] then []
    else (match pick(bs[0]) case Some(u) => [u] case None => []) + Project(bs[1..], pick)
  }

  lemma {:induction false} ProjectAppend<U>(a: seq<Block>, b: seq<Block>, pick: Block -> Option<U>)
    ensures Project(a + b, pick) == Project(a, pick) + Project(b, pick)
  {
    if a == [] {
      assert a + b == b;
    } else {
      assert (a + b)[0] == a[0];
      assert (a + b)[1..] == a[1..] + b;
      ProjectAppend(a[1..], b, pick);
    }
  }

  function ActivityOf(b: Block): Option<Activities.Activity>
  {
    if b.ActivityCard? then Some(b.activity) else None
  }

  function TransferOf(b: Block): Option<Transfers.Transfer>
  {
    if b.TransferCard? then Some(b.transfer) else None
  }

  function FlightOf(b: Block): Option<Flights.Flight>
  {
    if b.FlightCard? then Some(b.flight) else None
  }

  function DayNumberOf(b: Block): Option<int>
  {
    if b.DayHeading? then Some(b.day) else None
  }

  /** The price printed on a card; headings show none. */
  function PriceShown(b: Block): real
  {
    match b
    case ActivityCard(_, a) => a.price
    case TransferCard(_, t) => t.price
    case FlightCard(_, f) => f.price
    case _ => 0.0
  }

  /** Every activity of every day, day by day, each day's in list order. */
  function AllActivities(days: seq<Day>): seq<Activities.Activity>
  {
    if days == [] then [] else days[0].activities + AllActivities(days[1..])
  }

  /** Every transfer of every day, day by day. */
  function AllTransfers(days: seq<Day>): seq<Transfers.Transfer>
  {
    if days == [] then [] else days[0].transfers + AllTransfers(days[1..])
  }

  /** The day numbers in list order. */
  function DayNumbers(days: seq<Day>): (r: seq<int>)
    ensures |r| == |days|
    ensures forall i :: 0 <= i < |days| ==> r[i] == days[i].day
  {
    if days == [] then [] else [days[0].day] + DayNumbers(days[1..])
  }

  /** Blocks none of which `pick` selects project to nothing. */
  lemma {:induction false} ProjectNone<U>(bs: seq<Block>, pick: Block -> Option<U>)
    requires forall i :: 0 <= i < |bs| ==> pick(bs[i]).None?
    ensures Project(bs, pick) == []
  {
    if bs != [] {
      ProjectNone(bs[1..], pick);
    }
  }

  /** Activity cards show the activities in list order, with their prices. */
  lemma {:induction false} ActivityCardsShow(acts: seq<Activities.Activity>)
    ensures Project(ActivityCards(acts), ActivityOf) == acts
    ensures Sum(ActivityCards(acts), PriceShown) == Sum(acts, Activities.PriceOf)
  {
    if acts != [] {
      ActivityCardsShow(acts[1..]);
    }
  }

  /** Transfer cards show the transfers in list order, with their prices. */
  lemma {:induction false} TransferCardsShow(ts: seq<Transfers.Transfer>)
    ensures Project(TransferCards(ts), TransferOf) == ts
    ensures Sum(TransferCards(ts), PriceShown) == Sum(ts, Transfers.PriceOf)
  {
    if ts != [] {
      TransferCardsShow(ts[1..]);
    }
  }

  /** Flight cards show the flights in list order, with their prices. */
  lemma {:induction false} FlightCardsShow(fs: seq<Flights.Flight>)
    ensures Project(FlightCards(fs), FlightOf) == fs
    ensures Sum(FlightCards(fs), PriceShown) == Sum(fs, Flights.PriceOf)
  {
    if fs != [] {
      FlightCardsShow(fs[1..]);
    }
  }

  /** Projection over a three-part document. */
  lemma ProjectThree<U>(h: seq<Block>, a: seq<Block>, t: seq<Block>, pick: Block -> Option<U>)
    ensures Project(h + a + t, pick) == Project(h, pick) + Project(a, pick) + Project(t, pick)
  {
    ProjectAppend(h + a, t, pick);
    ProjectAppend(h, a, pick);
  }

  lemma DayShowsNumber(d: Day)
    ensures Project(RenderDay(d), DayNumberOf) == [d.day]
  {
    var h, a, t := [DayHeading(d.day, d.date)], ActivityCards(d.activities), TransferCards(d.transfers);
    ProjectThree(h, a, t, DayNumberOf);
    ProjectNone(a, DayNumberOf);
    ProjectNone(t, DayNumberOf);
    assert Project(h, DayNumberOf) == [d.day];
  }

  lemma DayShowsActivities(d: Day)
    ensures Project(RenderDay(d), ActivityOf) == d.activities
  {
    var h, a, t := [DayHeading(d.day, d.date)], ActivityCards(d.activities), TransferCards(d.transfers);
    ProjectThree(h, a, t, ActivityOf);
    ProjectNone(h, ActivityOf);
    ProjectNone(t, ActivityOf);
    ActivityCardsShow(d.activities);
  }

  lemma DayShowsTransfers(d: Day)
    ensures Project(RenderDay(d), TransferOf) == d.transfers
  {
    var h, a, t := [DayHeading(d.day, d.date)], ActivityCards(d.activities), TransferCards(d.transfers);
    ProjectThree(h, a, t, TransferOf);
    ProjectNone(h, TransferOf);
    ProjectNone(a, TransferOf);
    TransferCardsShow(d.transfers);
  }

  lemma DayShowsPrice(d: Day)
    ensures Sum(RenderDay(d), PriceShown) == Pricing.DayPrice(d)
  {
    var h, a, t := [DayHeading(d.day, d.date)], ActivityCards(d.activities), TransferCards(d.transfers);
    SumAppend(h + a, t, PriceShown);
    SumAppend(h, a, PriceShown);
    ActivityCardsShow(d.activities);
    TransferCardsShow(d.transfers);
    assert Sum(h, PriceShown) == 0.0 by {
      assert Sum(h, PriceShown) == PriceShown(h[0]) + Sum(h[1..], PriceShown);
    }
  }

  /** A day's section shows its number once, its activities and transfers in
      order, no flight, and prices adding up to the day's price. */
  lemma DayShows(d: Day)
    ensures Project(RenderDay(d), DayNumberOf) == [d.day]
    ensures Project(RenderDay(d), ActivityOf) == d.activities
    ensures Project(RenderDay(d), TransferOf) == d.transfers
    ensures Sum(RenderDay(d), PriceShown) == Pricing.DayPrice(d)
  {
    DayShowsNumber(d);
    DayShowsActivities(d);
    DayShowsTransfers(d);
    DayShowsPrice(d);
  }

  /** The day sections show the days in list order, every activity and
      transfer day by day, and the days' prices. */
  lemma {:induction false} DaysShow(days: seq<Day>)
    ensures Project(RenderDays(days), DayNumberOf) == DayNumbers(days)
    ensures Project(RenderDays(days), ActivityOf) == AllActivities(days)
    ensures Project(RenderDays(days), TransferOf) == AllTransfers(days)
    ensures Sum(RenderDays(days), PriceShown) == Sum(days, Pricing.DayPrice)
  {
    if days != [] {
      var first, rest := RenderDay(days[0]), RenderDays(days[1..]);
      DaysShow(days[1..]);
      DayShows(days[0]);
      ProjectAppend(first, rest, DayNumberOf);
      ProjectAppend(first, rest, ActivityOf);
      ProjectAppend(first, rest, TransferOf);
      SumAppend(first, rest, PriceShown);
    }
  }

  /** The flight section shows the flights in list order and nothing else. */
  lemma FlightsShow(fs: seq<Flights.Flight>)
    ensures Project(RenderFlights(fs), DayNumberOf) == []
    ensures Project(RenderFlights(fs), ActivityOf) == []
    ensures Project(RenderFlights(fs), TransferOf) == []
    ensures Project(RenderFlights(fs), FlightOf) == fs
    ensures Sum(RenderFlights(fs), PriceShown) == Sum(fs, Flights.PriceOf)
  {
    if |fs| > 0 {
      var cards := FlightCards(fs);
      assert RenderFlights(fs) == [FlightsHeading] + cards;
      ProjectNone([FlightsHeading] + cards, DayNumberOf);
      ProjectNone([FlightsHeading] + cards, ActivityOf);
      ProjectNone([FlightsHeading] + cards, TransferOf);
      ProjectAppend([FlightsHeading], cards, FlightOf);
      FlightCardsShow(fs);
      SumAppend([FlightsHeading], cards, PriceShown);
    }
  }

  lemma RenderShowsFlightHeading(it: Itinerary)
    ensures FlightsHeading in Render(it) <==> |it.flights| > 0
  {
    var ds, fs := RenderDays(it.days), RenderFlights(it.flights);
    if |it.flights| > 0 {
      assert Render(it)[|ds|] == FlightsHeading;
    } else {
      assert Render(it) == ds;
    }
  }

  lemma RenderShowsPrice(it: Itinerary)
    ensures Sum(Render(it), PriceShown) == Pricing.TotalPrice(it)
  {
    DaysShow(it.days);
    FlightsShow(it.flights);
    SumAppend(RenderDays(it.days), RenderFlights(it.flights), PriceShown);
  }

  /** The page shows the days in list order; within each day all activities
      and then all transfers, in list order; then the flights in list order
      under a flight heading that appears exactly when there are flights. The
      prices on the cards add up to the trip total. */
  lemma RenderShows(it: Itinerary)
    ensures Project(Render(it), DayNumberOf) == DayNumbers(it.days)
    ensures Project(Render(it), ActivityOf) == AllActivities(it.days)
    ensures Project(Render(it), TransferOf) == AllTransfers(it.days)
    ensures Project(Render(it), FlightOf) == it.flights
    ensures FlightsHeading in Render(it) <==> |it.flights| > 0
    ensures Sum(Render(it), PriceShown) == Pricing.TotalPrice(it)
  {
    var ds, fs := RenderDays(it.days), RenderFlights(it.flights);
    DaysShow(it.days);
    FlightsShow(it.flights);
    ProjectAppend(ds, fs, DayNumberOf);
    ProjectAppend(ds, fs, ActivityOf);
    ProjectAppend(ds, fs, TransferOf);
    ProjectAppend(ds, fs, FlightOf);
    ProjectNone(ds, FlightOf);
    RenderShowsFlightHeading(it);
    RenderShowsPrice(it);
  }

  /* ---------- Loading ---------- */

  /** `decodeURIComponent` on escapes of ASCII characters: each "%" must
      start an escape of two hexadecimal digits, which stands for the
      character with that code; any other "%" makes the call throw (None). */
  function PercentDecode(s: string): (r: Option<string>)
    ensures (forall i :: 0 <= i < |s| ==> s[i] != '%') ==> r == Some(s)
    ensures r.Some? ==> |r.value| <= |s|
    decreases |s|
  {
    if s == [] then Some([])
    else if s[0] != '%' then
      assert [s[0]] + s[1..] == s;
      match PercentDecode(s[1..])
      case None => None
      case Some(t) => Some([s[0]] + t)
    else if |s| >= 3 && NumericInput.IsDigit(s[1], 16) && NumericInput.IsDigit(s[2], 16)
            && NumericInput.DigitValue(s[1], 16).value < 8 then
      var code := 16 * NumericInput.DigitValue(s[1], 16).value + NumericInput.DigitValue(s[2], 16).value;
      match PercentDecode(s[3..])
      case None => None
      case Some(t) => Some([code as char] + t)
    else None
  }

  /** A "%" not followed by a hexadecimal digit, before any other "%",
      makes the decoding fail. */
  lemma {:induction false} StrayPercent(a: string, c: char, b: string)
    requires forall i :: 0 <= i < |a| ==> a[i] != '%'
    requires !NumericInput.IsDigit(c, 16)
    ensures PercentDecode(a + ['%', c] + b).None?
  {
    if a == [] {
      assert a + ['%', c] + b == ['%', c] + b;
    } else {
      assert (a + ['%', c] + b)[1..] == a[1..] + ['%', c] + b;
      StrayPercent(a[1..], c, b);
    }
  }

  /** The page state once its effect has run, as written: the `data` query
      parameter, which the query-string parser has already percent-decoded,
      is decoded a second time with `decodeURIComponent` and then parsed as
      JSON; a thrown error in either step leaves the state empty. */
  function ReadDataAsWritten(data: Option<string>, parse: string -> Option<Itinerary>): (state: Option<Itinerary>)
    ensures state.Some? ==>
              data.Some? && data.value != "" && PercentDecode(data.value).Some?
              && state == parse(PercentDecode(data.value).value)
    ensures data.Some? && data.value != "" && PercentDecode(data.value).Some? ==>
              state == parse(PercentDecode(data.value).value)
  {
    match data
    case None => None
    case Some(text) =>
      if text == "" then None
      else
        match PercentDecode(text)
        case None => None
        case Some(json) => parse(json)
  }

  /** The page state as intended: the parameter, present and non-empty, is
      parsed as JSON as it arrives (None when parsing throws). */
  function ReadData(data: Option<string>, parse: string -> Option<Itinerary>): (state: Option<Itinerary>)
    ensures state.Some? ==> data.Some? && data.value != "" && state == parse(data.value)
  {
    match data
    case None => None
    case Some(text) => if text == "" then None else parse(text)
  }

  /** What the page displays. */
  datatype View = Loading | Document(blocks: seq<Block>)

  function Show(state: Option<Itinerary>): View
  {
    match state
    case None => Loading
    case Some(it) => Document(Render(it))
  }

  /** The page stays on "Loading Preview..." exactly when the parameter is
      missing or empty or fails to parse; otherwise it shows the parsed
      itinerary. */
  lemma LoadingUnlessDecoded(data: Option<string>, parse: string -> Option<Itinerary>)
    ensures Show(ReadData(data, parse)).Loading?
            <==> data.None? || data.value == "" || parse(data.value).None?
    ensures Show(ReadData(data, parse)).Document? ==>
              Show(ReadData(data, parse)).blocks == Render(parse(data.value).value)
  {
  }

  /** The extra decoding changes nothing for text without a "%". */
  lemma AsWrittenAgreesWithoutPercent(text: string, parse: string -> Option<Itinerary>)
    requires forall i :: 0 <= i < |text| ==> text[i] != '%'
    ensures ReadDataAsWritten(Some(text), parse) == ReadData(Some(text), parse)
  {
  }

  /** As written, an itinerary whose serialised text holds "50% off" (an
      activity description, say) with no "%" before it never leaves
      "Loading Preview...", whatever the JSON parser does. */
  lemma StrayPercentStaysLoading(a: string, b: string, parse: string -> Option<Itinerary>)
    requires forall i :: 0 <= i < |a| ==> a[i] != '%'
    ensures Show(ReadDataAsWritten(Some(a + "50% off" + b), parse)) == Loading
  {
    var pre := a + "50";
    assert forall i :: 0 <= i < |pre| ==> pre[i] != '%';
    assert a + "50% off" + b == pre + ['%', ' '] + ("off" + b);
    StrayPercent(pre, ' ', "off" + b);
  }

  /** As written, an escape inside the serialised text is decoded again:
      the text "%41" reaches the JSON parser as "A". */
  lemma EscapeDecodedTwice(parse: string -> Option<Itinerary>)
    ensures ReadDataAsWritten(Some("%41"), parse) == parse("A")
  {
    var s := "%41";
    assert s[0] == '%' && s[1] == '4' && s[2] == '1';
    assert NumericInput.DigitValue('4', 16) == Some(4);
    assert NumericInput.DigitValue('1', 16) == Some(1);
    assert s[3..] == [];
    assert PercentDecode(s[3..]) == Some([]);
    assert NumericInput.IsDigit(s[1], 16) && NumericInput.IsDigit(s[2], 16);
    var code := 16 * NumericInput.DigitValue(s[1], 16).value + NumericInput.DigitValue(s[2], 16).value;
    assert code == 65;
    assert [code as char] + [] == "A";
    assert PercentDecode(s) == Some("A");
  }
}

=== FILE: pricing.dfy ===
/** The trip total: every activity and transfer price over all days plus
    every flight price. */
module Pricing {
  import opened Basics
  import opened Sequences
  import opened Itineraries
  import Builder
  import Activities
  import Transfers
  import Flights

  /** The prices of one day's activities and transfers. */
  function DayPrice(d: Day): real
  {
    Sum(d.activities, Activities.PriceOf) + Sum(d.transfers, Transfers.PriceOf)
  }

  /** The reference definition of the total. */
  function TotalPrice(it: Itinerary): real
  {
    Sum(it.days, DayPrice) + Sum(it.flights, Flights.PriceOf)
  }

  /** `calculateTotalPrice`: accumulates the prices day by day (activities,
      then transfers), then the flights, and stores the sum as `totalPrice`. */
  method CalculateTotalPrice(it: Itinerary) returns (r: Itinerary)
    ensures r == it.(totalPrice := TotalPrice(it))
  {
    var total := 0.0;
    var i := 0;
    while i < |it.days|
      invariant 0 <= i <= |it.days|
      invariant total == Sum(it.days[..i], DayPrice)
    {
      var day := it.days[i];
      var j := 0;
      while j < |day.activities|
        invariant 0 <= j <= |day.activities|
        invariant total == Sum(it.days[..i], DayPrice) + Sum(day.activities[..j], Activities.PriceOf)
      {
        assert day.activities[..j + 1] == day.activities[..j] + [day.activities[j]];
        SumSnoc(day.activities[..j], day.activities[j], Activities.PriceOf);
        total := total + day.activities[j].price;
        j := j + 1;
      }
      assert day.activities[..j] == day.activities;
      var k := 0;
      while k < |day.transfers|
        invariant 0 <= k <= |day.transfers|
        invariant total == Sum(it.days[..i], DayPrice) + Sum(day.activities, Activities.PriceOf)
                           + Sum(day.transfers[..k], Transfers.PriceOf)
      {
        assert day.transfers[..k + 1] == day.transfers[..k] + [day.transfers[k]];
        SumSnoc(day.transfers[..k], day.transfers[k], Transfers.PriceOf);
        total := total + day.transfers[k].price;
        k := k + 1;
      }
      assert day.transfers[..k] == day.transfers;
      assert it.days[..i + 1] == it.days[..i] + [day];
      SumSnoc(it.days[..i], day, DayPrice);
      i := i + 1;
    }
    assert it.days[..i] == it.days;
    var n := 0;
    while n < |it.flights|
      invariant 0 <= n <= |it.flights|
      invariant total == Sum(it.days, DayPrice) + Sum(it.flights[..n], Flights.PriceOf)
    {
      assert it.flights[..n + 1] == it.flights[..n] + [it.flights[n]];
      SumSnoc(it.flights[..n], it.flights[n], Flights.PriceOf);
      total := total + it.flights[n].price;
      n := n + 1;
    }
    assert it.flights[..n] == it.flights;
    r := it.(totalPrice := total);
  }

  /** Changing one day changes the total by that day's change. */
  lemma TotalAfterDayChange(it: Itinerary, dayIndex: int, d: Day)
    requires Builder.InRange(it, dayIndex)
    ensures TotalPrice(it.(days := it.days[dayIndex := d]))
         == TotalPrice(it) - DayPrice(it.days[dayIndex]) + DayPrice(d)
  {
    SumReplace(it.days, dayIndex, d, DayPrice);
  }

  /** Days with no items cost nothing, however many there are. */
  lemma {:induction false} EmptyDaysCostNothing(days: seq<Day>)
    requires AllEmpty(days)
    ensures Sum(days, DayPrice) == 0.0
  {
    if days != [] {
      EmptyDaysCostNothing(days[1..]);
    }
  }

  lemma AddingBlankActivityKeepsTotal(it: Itinerary, dayIndex: int, id: string)
    ensures TotalPrice(Builder.AddActivity(it, dayIndex, id)) == TotalPrice(it)
  {
    if Builder.InRange(it, dayIndex) {
      var d := it.days[dayIndex];
      SumSnoc(d.activities, Activities.New(id), Activities.PriceOf);
      TotalAfterDayChange(it, dayIndex, d.(activities := d.activities + [Activities.New(id)]));
      assert Builder.AddActivity(it, dayIndex, id) == it.(days := it.days[dayIndex := d.(activities := d.activities + [Activities.New(id)])]);
    }
  }

  lemma AddingBlankTransferKeepsTotal(it: Itinerary, dayIndex: int, id: string)
    ensures TotalPrice(Builder.AddTransfer(it, dayIndex, id)) == TotalPrice(it)
  {
    if Builder.InRange(it, dayIndex) {
      var d := it.days[dayIndex];
      SumSnoc(d.transfers, Transfers.New(id), Transfers.PriceOf);
      TotalAfterDayChange(it, dayIndex, d.(transfers := d.transfers + [Transfers.New(id)]));
      assert Builder.AddTransfer(it, dayIndex, id) == it.(days := it.days[dayIndex := d.(transfers := d.transfers + [Transfers.New(id)])]);
    }
  }

  lemma AddingBlankFlightKeepsTotal(it: Itinerary, id: string)
    ensures TotalPrice(Builder.AddFlight(it, id)) == TotalPrice(it)
  {
    SumSnoc(it.flights, Flights.New(id), Flights.PriceOf);
  }

  /** A freshly added item is priced 0, so adding one leaves the total as it was. */
  lemma AddingBlankItemKeepsTotal(it: Itinerary, dayIndex: int, id: string)
    ensures TotalPrice(Builder.AddActivity(it, dayIndex, id)) == TotalPrice(it)
    ensures TotalPrice(Builder.AddTransfer(it, dayIndex, id)) == TotalPrice(it)
    ensures TotalPrice(Builder.AddFlight(it, id)) == TotalPrice(it)
  {
    AddingBlankActivityKeepsTotal(it, dayIndex, id);
    AddingBlankTransferKeepsTotal(it, dayIndex, id);
    AddingBlankFlightKeepsTotal(it, id);
  }

  /** Removing by id lowers the total by exactly the prices of the items
      removed (every item carrying the id). */
  lemma RemovingLowersTotal(it: Itinerary, dayIndex: int, id: string)
    ensures Builder.InRange(it, dayIndex) ==>
              TotalPrice(Builder.RemoveActivity(it, dayIndex, id))
              == TotalPrice(it) - Sum(WithId(it.days[dayIndex].activities, Activities.IdOf, id), Activities.PriceOf)
    ensures Builder.InRange(it, dayIndex) ==>
              TotalPrice(Builder.RemoveTransfer(it, dayIndex, id))
              == TotalPrice(it) - Sum(WithId(it.days[dayIndex].transfers, Transfers.IdOf, id), Transfers.PriceOf)
    ensures TotalPrice(Builder.RemoveFlight(it, id))
            == TotalPrice(it) - Sum(WithId(it.flights, Flights.IdOf, id), Flights.PriceOf)
  {
    if Builder.InRange(it, dayIndex) {
      var d := it.days[dayIndex];
      var da := d.(activities := WithoutId(d.activities, Activities.IdOf, id));
      SumSplitById(d.activities, Activities.IdOf, id, Activities.PriceOf);
      TotalAfterDayChange(it, dayIndex, da);
      assert Builder.RemoveActivity(it, dayIndex, id) == it.(days := it.days[dayIndex := da]);
      var dt := d.(transfers := WithoutId(d.transfers, Transfers.IdOf, id));
      SumSplitById(d.transfers, Transfers.IdOf, id, Transfers.PriceOf);
      TotalAfterDayChange(it, dayIndex, dt);
      assert Builder.RemoveTransfer(it, dayIndex, id) == it.(days := it.days[dayIndex := dt]);
    }
    SumSplitById(it.flights, Flights.IdOf, id, Flights.PriceOf);
  }

  lemma NonPriceActivityEditKeepsTotal(it: Itinerary, dayIndex: int, id: string, ea: Activities.Edit)
    requires !ea.SetPrice?
    ensures TotalPrice(Builder.UpdateActivity(it, dayIndex, id, ea)) == TotalPrice(it)
  {
    if Builder.InRange(it, dayIndex) {
      var d := it.days[dayIndex];
      SumUpdateKeeps(d.activities, Activities.IdOf, id, Activities.Editor(ea), Activities.PriceOf);
      var da := d.(activities := UpdateById(d.activities, Activities.IdOf, id, Activities.Editor(ea)));
      TotalAfterDayChange(it, dayIndex, da);
      assert Builder.UpdateActivity(it, dayIndex, id, ea) == it.(days := it.days[dayIndex := da]);
    }
  }

  lemma NonPriceTransferEditKeepsTotal(it: Itinerary, dayIndex: int, id: string, et: Transfers.Edit)
    requires !et.SetPrice?
    ensures TotalPrice(Builder.UpdateTransfer(it, dayIndex, id, et)) == TotalPrice(it)
  {
    if Builder.InRange(it, dayIndex) {
      var d := it.days[dayIndex];
      SumUpdateKeeps(d.transfers, Transfers.IdOf, id, Transfers.Editor(et), Transfers.PriceOf);
      var dt := d.(transfers := UpdateById(d.transfers, Transfers.IdOf, id, Transfers.Editor(et)));
      TotalAfterDayChange(it, dayIndex, dt);
      assert Builder.UpdateTransfer(it, dayIndex, id, et) == it.(days := it.days[dayIndex := dt]);
    }
  }

  lemma NonPriceFlightEditKeepsTotal(it: Itinerary, id: string, ef: Flights.Edit)
    requires !ef.SetPrice?
    ensures TotalPrice(Builder.UpdateFlight(it, id, ef)) == TotalPrice(it)
  {
    SumUpdateKeeps(it.flights, Flights.IdOf, id, Flights.Editor(ef), Flights.PriceOf);
  }

  /** Editing any field other than the price leaves the total unchanged. */
  lemma NonPriceEditKeepsTotal(it: Itinerary, dayIndex: int, id: string,
                               ea: Activities.Edit, et: Transfers.Edit, ef: Flights.Edit)
    requires !ea.SetPrice? && !et.SetPrice? && !ef.SetPrice?
    ensures TotalPrice(Builder.UpdateActivity(it, dayIndex, id, ea)) == TotalPrice(it)
    ensures TotalPrice(Builder.UpdateTransfer(it, dayIndex, id, et)) == TotalPrice(it)
    ensures TotalPrice(Builder.UpdateFlight(it, id, ef)) == TotalPrice(it)
  {
    NonPriceActivityEditKeepsTotal(it, dayIndex, id, ea);
    NonPriceTransferEditKeepsTotal(it, dayIndex, id, et);
    NonPriceFlightEditKeepsTotal(it, id, ef);
  }

  lemma ActivitySumAfterPriceEdit(xs: seq<Activities.Activity>, id: string, a: Activities.Activity, v: real)
    requires WithId(xs, Activities.IdOf, id) == [a]
    ensures Sum(UpdateById(xs, Activities.IdOf, id, Activities.Editor(Activities.SetPrice(v))), Activities.PriceOf)
         == Sum(xs, Activities.PriceOf) - a.price + v
  {
    var ed := Activities.Editor(Activities.SetPrice(v));
    SumUpdateSingle(xs, Activities.IdOf, id, ed, Activities.PriceOf, a);
    assert ed(a) == a.(price := v);
  }

  /** With exactly one activity carrying the id, setting its price moves the
      total by the difference between the new and the old price. */
  lemma ActivityPriceEditShiftsTotal(it: Itinerary, dayIndex: int, id: string, a: Activities.Activity, v: real)
    requires Builder.InRange(it, dayIndex)
    requires WithId(it.days[dayIndex].activities, Activities.IdOf, id) == [a]
    ensures TotalPrice(Builder.UpdateActivity(it, dayIndex, id, Activities.SetPrice(v)))
            == TotalPrice(it) - a.price + v
  {
    var d := it.days[dayIndex];
    var ed := Activities.Editor(Activities.SetPrice(v));
    ActivitySumAfterPriceEdit(d.activities, id, a, v);
    var da := d.(activities := UpdateById(d.activities, Activities.IdOf, id, ed));
    TotalAfterDayChange(it, dayIndex, da);
    assert Builder.UpdateActivity(it, dayIndex, id, Activities.SetPrice(v)) == it.(days := it.days[dayIndex := da]);
  }

  lemma TransferSumAfterPriceEdit(xs: seq<Transfers.Transfer>, id: string, t: Transfers.Transfer, v: real)
    requires WithId(xs, Transfers.IdOf, id) == [t]
    ensures Sum(UpdateById(xs, Transfers.IdOf, id, Transfers.Editor(Transfers.SetPrice(v))), Transfers.PriceOf)
         == Sum(xs, Transfers.PriceOf) - t.price + v
  {
    var ed := Transfers.Editor(Transfers.SetPrice(v));
    SumUpdateSingle(xs, Transfers.IdOf, id, ed, Transfers.PriceOf, t);
    assert ed(t) == t.(price := v);
  }

  /** With exactly one transfer carrying the id, setting its price moves the
      total by the difference. */
  lemma TransferPriceEditShiftsTotal(it: Itinerary, dayIndex: int, id: string, t: Transfers.Transfer, v: real)
    requires Builder.InRange(it, dayIndex)
    requires WithId(it.days[dayIndex].transfers, Transfers.IdOf, id) == [t]
    ensures TotalPrice(Builder.UpdateTransfer(it, dayIndex, id, Transfers.SetPrice(v)))
            == TotalPrice(it) - t.price + v
  {
    var d := it.days[dayIndex];
    var ed := Transfers.Editor(Transfers.SetPrice(v));
    TransferSumAfterPriceEdit(d.transfers, id, t, v);
    var dt := d.(transfers := UpdateById(d.transfers, Transfers.IdOf, id, ed));
    TotalAfterDayChange(it, dayIndex, dt);
    assert Builder.UpdateTransfer(it, dayIndex, id, Transfers.SetPrice(v)) == it.(days := it.days[dayIndex := dt]);
  }

  lemma FlightSumAfterPriceEdit(fs: seq<Flights.Flight>, id: string, fl: Flights.Flight, v: real)
    requires WithId(fs, Flights.IdOf, id) == [fl]
    ensures Sum(UpdateById(fs, Flights.IdOf, id, Flights.Editor(Flights.SetPrice(v))), Flights.PriceOf)
         == Sum(fs, Flights.PriceOf) - fl.price + v
  {
    var ed := Flights.Editor(Flights.SetPrice(v));
    SumUpdateSingle(fs, Flights.IdOf, id, ed, Flights.PriceOf, fl);
    assert ed(fl) == fl.(price := v);
  }

  /** With exactly one flight carrying the id, setting its price moves the
      total by the difference. */
  lemma FlightPriceEditShiftsTotal(it: Itinerary, id: string, fl: Flights.Flight, v: real)
    requires WithId(it.flights, Flights.IdOf, id) == [fl]
    ensures TotalPrice(Builder.UpdateFlight(it, id, Flights.SetPrice(v))) == TotalPrice(it) - fl.price + v
  {
    FlightSumAfterPriceEdit(it.flights, id, fl, v);
  }
}

=== FILE: sequences.dfy ===
/** Generic sequence operations behind the builder's immutable updates:
    `map` at one position, `map` over the elements carrying an id, `filter`
    out an id, and summation of a weight over a sequence. */
module Sequences {

  /** Some element of `xs` carries `id`. */
  predicate HasId<T>(xs: seq<T>, idOf: T -> string, id: string)
  {
    xs != [] && (idOf(xs[0]) == id || HasId(xs[1..], idOf, id))
  }

  /** `xs.map((x, i) => i === index ? f(x) : x)`: applies `f` at one
      position and leaves every other position as it was. */
  function MapAt<T>(xs: seq<T>, index: int, f: T -> T): (r: seq<T>)
    ensures |r| == |xs|
    ensures forall i :: 0 <= i < |xs| && i != index ==> r[i] == xs[i]
    ensures 0 <= index < |xs| ==> r[index] == f(xs[index])
    ensures !(0 <= index < |xs|) ==> r == xs
  {
    if 0 <= index < |xs| then xs[index := f(xs[index])] else xs
  }

  /** `xs.map(x => idOf(x) === id ? f(x) : x)`: rewrites every element that
      carries `id`, in place; ids are not assumed unique. */
  function UpdateById<T>(xs: seq<T>, idOf: T -> string, id: string, f: T -> T): (r: seq<T>)
    ensures |r| == |xs|
    ensures forall i :: 0 <= i < |xs| ==> r[i] == (if idOf(xs[i]) == id then f(xs[i]) else xs[i])
    ensures !HasId(xs, idOf, id) ==> r == xs
  {
    if xs == [] then []
    else [if idOf(xs[0]) == id then f(xs[0]) else xs[0]] + UpdateById(xs[1..], idOf, id, f)
  }

  /** The elements of `xs` that carry `id`, in their original order. */
  function WithId<T>(xs: seq<T>, idOf: T -> string, id: string): (r: seq<T>)
    ensures forall i :: 0 <= i < |r| ==> idOf(r[i]) == id
    ensures HasId(xs, idOf, id) <==> r != []
  {
    if xs == [] then []
    else (if idOf(xs[0]) == id then [xs[0]] else []) + WithId(xs[1..], idOf, id)
  }

  /** `xs.filter(x => idOf(x) !== id)`: drops every element that carries
      `id` and keeps the others in their original order. */
  function WithoutId<T>(xs: seq<T>, idOf: T -> string, id: string): (r: seq<T>)
    ensures |r| + |WithId(xs, idOf, id)| == |xs|
    ensures !HasId(xs, idOf, id) ==> r == xs
  {
    if xs == [] then []
    else (if idOf(xs[0]) == id then [] else [xs[0]]) + WithoutId(xs[1..], idOf, id)
  }

  /** The head and tail of a concatenation with a non-empty left part. */
  lemma ConsAppend<T>(a: seq<T>, b: seq<T>)
    requires a != []
    ensures (a + b)[0] == a[0] && (a + b)[1..] == a[1..] + b
  {
  }

  lemma Associative<T>(a: seq<T>, b: seq<T>, c: seq<T>)
    ensures a + (b + c) == (a + b) + c
  {
  }

  /** Filtering a non-empty sequence decides its head and filters the rest. */
  lemma WithoutIdHead<T>(xs: seq<T>, idOf: T -> string, id: string)
    requires xs != []
    ensures WithoutId(xs, idOf, id) == (if idOf(xs[0]) == id then [] else [xs[0]]) + WithoutId(xs[1..], idOf, id)
  {
  }

  /** Filtering distributes over concatenation and keeps or drops a single
      element by its id; together these determine the result, order and
      repetitions included. */
  lemma {:induction false} WithoutIdAppend<T>(a: seq<T>, b: seq<T>, idOf: T -> string, id: string)
    ensures WithoutId(a + b, idOf, id) == WithoutId(a, idOf, id) + WithoutId(b, idOf, id)
    ensures |a| == 1 ==> WithoutId(a, idOf, id) == if idOf(a[0]) == id then [] else a
  {
    if |a| == 1 {
      assert a[1..] == [];
    }
    if a == [] {
      assert a + b == b;
    } else {
      var keep := if idOf(a[0]) == id then [] else [a[0]];
      ConsAppend(a, b);
      WithoutIdHead(a + b, idOf, id);
      WithoutIdHead(a, idOf, id);
      WithoutIdAppend(a[1..], b, idOf, id);
      Associative(keep, WithoutId(a[1..], idOf, id), WithoutId(b, idOf, id));
    }
  }

  /** What `WithoutId` keeps: exactly the elements whose id differs. */
  lemma {:induction false} WithoutIdMembers<T>(xs: seq<T>, idOf: T -> string, id: string)
    ensures forall x :: x in WithoutId(xs, idOf, id) ==> x in xs && idOf(x) != id
    ensures forall x :: x in xs && idOf(x) != id ==> x in WithoutId(xs, idOf, id)
  {
    if xs != [] {
      WithoutIdMembers(xs[1..], idOf, id);
      var keep := if idOf(xs[0]) == id then [] else [xs[0]];
      assert WithoutId(xs, idOf, id) == keep + WithoutId(xs[1..], idOf, id);
      assert xs == [xs[0]] + xs[1..];
    }
  }

  /** The total weight of a sequence. */
  function Sum<T>(xs: seq<T>, w: T -> real): real
  {
    if xs == [] then 0.0 else w(xs[0]) + Sum(xs[1..], w)
  }

  lemma {:induction false} SumAppend<T>(a: seq<T>, b: seq<T>, w: T -> real)
    ensures Sum(a + b, w) == Sum(a, w) + Sum(b, w)
  {
    if a == [] {
      assert a + b == b;
    } else {
      assert (a + b)[0] == a[0];
      assert (a + b)[1..] == a[1..] + b;
      SumAppend(a[1..], b, w);
    }
  }

  /** Adding one element at the end adds its weight (the running total of a loop). */
  lemma SumSnoc<T>(xs: seq<T>, x: T, w: T -> real)
    ensures Sum(xs + [x], w) == Sum(xs, w) + w(x)
  {
    SumAppend(xs, [x], w);
  }

  /** Splitting by id partitions the weight: what `WithoutId` drops is
      exactly the weight of `WithId`. */
  lemma {:induction false} SumSplitById<T>(xs: seq<T>, idOf: T -> string, id: string, w: T -> real)
    ensures Sum(xs, w) == Sum(WithoutId(xs, idOf, id), w) + Sum(WithId(xs, idOf, id), w)
  {
    if xs != [] {
      SumSplitById(xs[1..], idOf, id, w);
      var x := xs[0];
      var keep := if idOf(x) == id then [] else [x];
      var hit := if idOf(x) == id then [x] else [];
      SumAppend(keep, WithoutId(xs[1..], idOf, id), w);
      SumAppend(hit, WithId(xs[1..], idOf, id), w);
    }
  }

  /** A rewrite that keeps every element's weight keeps the total. */
  lemma {:induction false} SumUpdateKeeps<T>(xs: seq<T>, idOf: T -> string, id: string, f: T -> T, w: T -> real)
    requires forall x :: w(f(x)) == w(x)
    ensures Sum(UpdateById(xs, idOf, id, f), w) == Sum(xs, w)
  {
    if xs != [] {
      SumUpdateKeeps(xs[1..], idOf, id, f, w);
    }
  }

  /** Rewriting the elements that carry `id` changes only their share of
      the total: the rest keep their weight. */
  lemma {:induction false} SumUpdateById<T>(xs: seq<T>, idOf: T -> string, id: string, f: T -> T, w: T -> real)
    ensures Sum(UpdateById(xs, idOf, id, f), w)
         == Sum(WithoutId(xs, idOf, id), w) + Sum(UpdateById(WithId(xs, idOf, id), idOf, id, f), w)
  {
    if xs != [] {
      var x := xs[0];
      var kept, hits := WithoutId(xs[1..], idOf, id), WithId(xs[1..], idOf, id);
      SumUpdateById(xs[1..], idOf, id, f, w);
      var u := UpdateById(xs, idOf, id, f);
      assert u[1..] == UpdateById(xs[1..], idOf, id, f);
      assert Sum(u, w) == w(u[0]) + Sum(u[1..], w);
      if idOf(x) == id {
        assert WithoutId(xs, idOf, id) == kept;
        assert WithId(xs, idOf, id) == [x] + hits;
        var v := UpdateById([x] + hits, idOf, id, f);
        assert v[0] == f(x);
        assert v[1..] == UpdateById(hits, idOf, id, f);
      } else {
        assert WithoutId(xs, idOf, id) == [x] + kept;
        assert WithId(xs, idOf, id) == hits;
        SumAppend([x], kept, w);
      }
    }
  }

  /** When exactly one element carries the id, updating by id changes the
      sum by the difference the update makes to that element. */
  lemma SumUpdateSingle<T>(xs: seq<T>, idOf: T -> string, id: string, f: T -> T, w: T -> real, x: T)
    requires WithId(xs, idOf, id) == [x]
    ensures Sum(UpdateById(xs, idOf, id, f), w) == Sum(xs, w) - w(x) + w(f(x))
  {
    SumUpdateById(xs, idOf, id, f, w);
    SumSplitById(xs, idOf, id, w);
    assert idOf([x][0]) == id;
    assert UpdateById([x], idOf, id, f) == [f(x)];
    assert Sum([f(x)], w) == w(f(x)) + Sum([f(x)][1..], w);
    assert Sum([x], w) == w(x) + Sum([x][1..], w);
  }

  /** The weight of a sequence split around one position. */
  lemma SumAround<T>(pre: seq<T>, x: T, post: seq<T>, w: T -> real)
    ensures Sum(pre + [x] + post, w) == Sum(pre, w) + w(x) + Sum(post, w)
  {
    SumAppend(pre + [x], post, w);
    SumAppend(pre, [x], w);
  }

  /** Replacing one position changes the total by that position's change. */
  lemma SumReplace<T>(xs: seq<T>, index: int, v: T, w: T -> real)
    requires 0 <= index < |xs|
    ensures Sum(xs[index := v], w) == Sum(xs, w) - w(xs[index]) + w(v)
  {
    var pre, post := xs[..index], xs[index + 1..];
    assert xs == pre + [xs[index]] + post;
    assert xs[index := v] == pre + [v] + post;
    SumAround(pre, xs[index], post, w);
    SumAround(pre, v, post, w);
  }
}

=== FILE: transfers.dfy ===
/** The Transfer record of the itinerary builder and its field edits. */
module Transfers {
  import opened Basics

  /** One transfer on a day. `kind` is the source's `type` field (the form
      offers "private-car", "shared-shuttle", "taxi" and "bus"; a new
      transfer has ""); `fromPlace` and `toPlace` are its `from` and `to`. */
  datatype Transfer = Transfer(id: string, kind: string, time: string, fromPlace: string,
                               toPlace: string, duration: string, price: real, capacity: int)

  /** The keys of a Transfer record. */
  datatype Field = Id | Kind | Time | From | To | Duration | Price | Capacity

  /** A field name with a value of that field's type, as passed to `updateTransfer`. */
  datatype Edit =
    | SetId(id: string)
    | SetKind(kind: string)
    | SetTime(time: string)
    | SetFrom(fromPlace: string)
    | SetTo(toPlace: string)
    | SetDuration(duration: string)
    | SetPrice(price: real)
    | SetCapacity(capacity: int)

  function IdOf(t: Transfer): string { t.id }

  function PriceOf(t: Transfer): real { t.price }

  /** Reads one field. */
  function Get(t: Transfer, f: Field): FieldValue
  {
    match f
    case Id => Text(t.id)
    case Kind => Text(t.kind)
    case Time => Text(t.time)
    case From => Text(t.fromPlace)
    case To => Text(t.toPlace)
    case Duration => Text(t.duration)
    case Price => Amount(t.price)
    case Capacity => Whole(t.capacity)
  }

  function FieldOf(e: Edit): Field
  {
    match e
    case SetId(_) => Id
    case SetKind(_) => Kind
    case SetTime(_) => Time
    case SetFrom(_) => From
    case SetTo(_) => To
    case SetDuration(_) => Duration
    case SetPrice(_) => Price
    case SetCapacity(_) => Capacity
  }

  function ValueOf(e: Edit): FieldValue
  {
    match e
    case SetId(v) => Text(v)
    case SetKind(v) => Text(v)
    case SetTime(v) => Text(v)
    case SetFrom(v) => Text(v)
    case SetTo(v) => Text(v)
    case SetDuration(v) => Text(v)
    case SetPrice(v) => Amount(v)
    case SetCapacity(v) => Whole(v)
  }

  /** The blank transfer that "Add Transfer" appends: price 0, capacity 1. */
  function New(id: string): (t: Transfer)
    ensures Get(t, Id) == Text(id)
    ensures Get(t, Price) == Amount(0.0)
    ensures Get(t, Capacity) == Whole(1)
    ensures forall f :: f != Id && f != Price && f != Capacity ==> Get(t, f) == Text("")
  {
    Transfer(id, "", "", "", "", "", 0.0, 1)
  }

  /** `{ ...transfer, [field]: value }`: only the edited field changes. */
  function Apply(t: Transfer, e: Edit): (r: Transfer)
    ensures forall f :: Get(r, f) == if f == FieldOf(e) then ValueOf(e) else Get(t, f)
  {
    match e
    case SetId(v) => t.(id := v)
    case SetKind(v) => t.(kind := v)
    case SetTime(v) => t.(time := v)
    case SetFrom(v) => t.(fromPlace := v)
    case SetTo(v) => t.(toPlace := v)
    case SetDuration(v) => t.(duration := v)
    case SetPrice(v) => t.(price := v)
    case SetCapacity(v) => t.(capacity := v)
  }

  /** The rewrite an edit performs, as a function value for `map`. */
  function Editor(e: Edit): Transfer -> Transfer
  {
    t => Apply(t, e)
  }

  /** Two transfers that agree on every field are equal. */
  lemma Extensional(a: Transfer, b: Transfer)
    requires forall f :: Get(a, f) == Get(b, f)
    ensures a == b
  {
    assert Get(a, Id) == Get(b, Id) && Get(a, Kind) == Get(b, Kind);
    assert Get(a, Time) == Get(b, Time) && Get(a, From) == Get(b, From);
    assert Get(a, To) == Get(b, To) && Get(a, Duration) == Get(b, Duration);
    assert Get(a, Price) == Get(b, Price) && Get(a, Capacity) == Get(b, Capacity);
  }
}

=== FILE: walkthrough.dfy ===
/** A worked session of the builder: choose a three-day range, add one
    activity on the second day priced 50 and one flight priced 300. */
module Walkthrough {
  import opened Basics
  import opened Sequences
  import opened Itineraries
  import Dates
  import Builder
  import Activities
  import Flights
  import Pricing

  /** Choosing the range yields three empty days dated s, s+1, s+2 with
      nothing priced yet. */
  lemma RangeChosen(s: int)
    ensures var it := Dates.SetEndDate(Dates.SetStartDate(Initial(), Some(s)), Some(s + 2));
            && it.totalDays == 3 && Consistent(it) && DatedFrom(it.days, s) && AllEmpty(it.days)
            && it.flights == [] && Pricing.TotalPrice(it) == 0.0
  {
    var it := Dates.SetEndDate(Dates.SetStartDate(Initial(), Some(s)), Some(s + 2));
    Pricing.EmptyDaysCostNothing(it.days);
  }

  /** The first activity added to an empty day is the only one carrying its id. */
  lemma FirstActivity(it: Itinerary, dayIndex: int, id: string)
    requires Builder.InRange(it, dayIndex) && it.days[dayIndex].activities == []
    ensures var r := Builder.AddActivity(it, dayIndex, id);
            && r.days[dayIndex].activities == [Activities.New(id)]
            && WithId(r.days[dayIndex].activities, Activities.IdOf, id) == [Activities.New(id)]
  {
    var r := Builder.AddActivity(it, dayIndex, id);
    assert r.days[dayIndex].activities[..0] == [];
  }

  /** Pricing the only activity of a day gives it that price. */
  lemma PricedOnlyActivity(it: Itinerary, dayIndex: int, id: string, v: real)
    requires Builder.InRange(it, dayIndex) && it.days[dayIndex].activities == [Activities.New(id)]
    ensures var r := Builder.UpdateActivity(it, dayIndex, id, Activities.SetPrice(v));
            r.days[dayIndex].activities == [Activities.New(id).(price := v)]
  {
    var r := Builder.UpdateActivity(it, dayIndex, id, Activities.SetPrice(v));
    assert Activities.IdOf(it.days[dayIndex].activities[0]) == id;
    Activities.Extensional(r.days[dayIndex].activities[0], Activities.New(id).(price := v));
  }

  /** The first flight added is the only one carrying its id. */
  lemma FirstFlight(it: Itinerary, id: string)
    requires it.flights == []
    ensures var r := Builder.AddFlight(it, id);
            && r.flights == [Flights.New(id)]
            && WithId(r.flights, Flights.IdOf, id) == [Flights.New(id)]
  {
    var r := Builder.AddFlight(it, id);
    assert r.flights[..0] == [];
  }

  /** Pricing the only flight gives it that price. */
  lemma PricedOnlyFlight(it: Itinerary, id: string, v: real)
    requires it.flights == [Flights.New(id)]
    ensures Builder.UpdateFlight(it, id, Flights.SetPrice(v)).flights == [Flights.New(id).(price := v)]
  {
    var r := Builder.UpdateFlight(it, id, Flights.SetPrice(v));
    assert Flights.IdOf(it.flights[0]) == id;
    Flights.Extensional(r.flights[0], Flights.New(id).(price := v));
  }

  /** The state after choosing the range and adding the priced activity. */
  function ActivityPriced(s: int): Itinerary
  {
    var it2 := Dates.SetEndDate(Dates.SetStartDate(Initial(), Some(s)), Some(s + 2));
    Builder.UpdateActivity(Builder.AddActivity(it2, 1, "a"), 1, "a", Activities.SetPrice(50.0))
  }

  lemma ActivityStage(s: int)
    ensures var it := ActivityPriced(s);
            && it.totalDays == 3 && Consistent(it) && it.flights == []
            && it.days[0].activities == [] && it.days[2].activities == []
            && |it.days[1].activities| == 1 && it.days[1].activities[0].price == 50.0
            && Pricing.TotalPrice(it) == 50.0
  {
    var it2 := Dates.SetEndDate(Dates.SetStartDate(Initial(), Some(s)), Some(s + 2));
    RangeChosen(s);
    var it3 := Builder.AddActivity(it2, 1, "a");
    Pricing.AddingBlankActivityKeepsTotal(it2, 1, "a");
    FirstActivity(it2, 1, "a");
    Pricing.ActivityPriceEditShiftsTotal(it3, 1, "a", Activities.New("a"), 50.0);
    PricedOnlyActivity(it3, 1, "a", 50.0);
  }

  /** The state after also adding the priced flight. */
  function FlightPriced(s: int): Itinerary
  {
    Builder.UpdateFlight(Builder.AddFlight(ActivityPriced(s), "f"), "f", Flights.SetPrice(300.0))
  }

  lemma FlightStage(s: int)
    ensures var it := FlightPriced(s);
            && it == ActivityPriced(s).(flights := it.flights)
            && |it.flights| == 1 && it.flights[0].price == 300.0
            && Pricing.TotalPrice(it) == 350.0
  {
    var it4 := ActivityPriced(s);
    ActivityStage(s);
    var it5 := Builder.AddFlight(it4, "f");
    Pricing.AddingBlankFlightKeepsTotal(it4, "f");
    FirstFlight(it4, "f");
    Pricing.FlightPriceEditShiftsTotal(it5, "f", Flights.New("f"), 300.0);
    PricedOnlyFlight(it5, "f", 300.0);
  }

  /** After the session the trip has three days, the one activity sits on
      day 2, and the total comes to 350. */
  lemma ThreeDayTrip(s: int)
    ensures var it := FlightPriced(s);
            && it.totalDays == 3 && Consistent(it)
            && it.days[0].activities == [] && it.days[2].activities == []
            && |it.days[1].activities| == 1 && it.days[1].activities[0].price == 50.0
            && |it.flights| == 1 && it.flights[0].price == 300.0
            && Pricing.TotalPrice(it) == 350.0
  {
    ActivityStage(s);
    FlightStage(s);
  }
}
